=== FILE: README.md ===
# Construction accounting: filtering, reports, dashboard stats and record entry

This Dafny project models the client-side and API logic of a construction-project
financial tracker. The tracker keeps projects, ledger transactions (credit and debit
entries) and financial records (contractor, vendor and supplier line items). The
model covers four pieces of it:

- **The financial records table** (`RecordsTable`):
  - the twelve text filters and how they are updated and cleared;
  - the record filter, with date bounds, case-insensitive substring criteria, an exact
    category match and numeric ranges;
  - the totals of the shown records (amount, credit, debit, balance);
  - the active-filter flag and count;
  - the sorted, duplicate-free lists that fill the category, trade and unit dropdowns.
- **The project report** (`Reports`):
  - the optional day filter and the category filter, where 'all' is the "no filter"
    value and the comparison ignores case;
  - the sort by date, newest first;
  - the summary (credit, debit, balance, entry count);
  - the list of categories.
- **The dashboard statistics endpoint** (`Dashboard`):
  - the project count;
  - the total spent, which is the sum of the projects' total costs;
  - the number of distinct transaction categories that look like contractors
    ("contractor", "labour") or suppliers ("material", "freight") by keyword.
- **The "Add Financial Record" dialog** (`RecordForm`):
  - the form state and field edits;
  - the default date set when the dialog opens;
  - the derived total amount;
  - the submit handler with its category guard, its request payload and its
    reset-or-keep behaviour;
  - the submit button's disabled condition.

Supporting modules model the JavaScript behaviour the code relies on:

- `Text`: `trim`, ASCII `toLowerCase`, `includes`, and the default string sort order.
- `Numbers`: `parseFloat` as a decimal-prefix reader, with NaN as `None`.
- `Dates`: `'yyyy-MM-dd'` dates, their parsing and formatting, and instants as
  milliseconds since the epoch in UTC.
- `Seqs` and `Sorting`: filtering, sums, distinct values and sorting.

The store queries, the clock and the outcome of the create request are parameters.

A numeric bound that `parseFloat` reads as NaN, such as `unitRatePriceMin = "abc"`,
excludes nothing, because every comparison with NaN is false and the `return false` is
never taken. `RecordsTable.UnreadableBoundIsUnset` proves this for every date and
numeric filter.

## Model

| member | source | states |
|---|---|---|
| RecordsTable.UpdateFilter | components/project/FinancialRecordsTable.tsx:121-123 | the chosen filter takes the new value and the other eleven keep theirs |
| RecordsTable.ClearFilters | components/project/FinancialRecordsTable.tsx:125-140 | every one of the twelve filters becomes the empty string |
| RecordsTable.FilterRecords | components/project/FinancialRecordsTable.tsx:97-119 | the shown records are a subsequence of the records, in their order, and are exactly the records that meet every criterion |
| RecordsTable.NoFiltersKeepsAll | components/project/FinancialRecordsTable.tsx:73-86 | with the initial (all-empty) filters, or after clearing, every record is shown in its original order |
| RecordsTable.Matches | components/project/FinancialRecordsTable.tsx:98-117 | a record is kept exactly when it passes the test of every one of the twelve filter fields, each test reading only its own field |
| RecordsTable.FieldTests | components/project/FinancialRecordsTable.tsx:100-115 | passing every field's test is the same as meeting the twelve date, text, category and numeric criteria |
| RecordsTable.EmptyFieldPassesAll | components/project/FinancialRecordsTable.tsx:100-115 | an empty filter field lets every record through |
| RecordsTable.SelectCategory | components/project/FinancialRecordsTable.tsx:317 | the dropdown's 'all' item clears the category filter, any other item sets it, and the other eleven fields keep their values |
| RecordsTable.SelectAllIgnoresCategory | components/project/FinancialRecordsTable.tsx:317 | after choosing 'all', a record is shown exactly when it passes the other eleven fields' tests |
| RecordsTable.KeptRecordsMeetCriteria | components/project/FinancialRecordsTable.tsx:100-115 | a shown record respects each readable date and numeric bound, contains each text criterion ignoring case at some position, and has exactly the selected category |
| RecordsTable.QuantityRangeInclusive | components/project/FinancialRecordsTable.tsx:112-113 | with only a quantity range set whose two bounds `parseFloat` reads as numbers `a` and `b`, a record is shown exactly when `a <= qty <= b`, both ends included |
| RecordsTable.OnlyQuantitySet | components/project/FinancialRecordsTable.tsx:97-119 | with only the quantity filters set, a record is shown exactly when it meets the two quantity bounds |
| RecordsTable.ShowNatBound | components/project/FinancialRecordsTable.tsx:110-115 | a number typed in decimal is read back as that number |
| RecordsTable.DateRangeInclusive | components/project/FinancialRecordsTable.tsx:100-101 | with only a date range set, a record is shown exactly when its instant lies between the midnights that start the two days, both included |
| RecordsTable.DateToStopsAtMidnight | components/project/FinancialRecordsTable.tsx:101 | the upper date bound is midnight at the start of its day, so a record later on that day is hidden by "to" and kept by "from" |
| RecordsTable.UnreadableBoundIsUnset | components/project/FinancialRecordsTable.tsx:100-115 | a date or numeric filter that does not parse (Invalid Date or NaN) shows the same records as that filter left empty |
| RecordsTable.AddingCriterionNarrows | components/project/FinancialRecordsTable.tsx:97-119 | setting a previously empty filter keeps a subsequence of the previously shown records, never more of them |
| RecordsTable.TextCriteriaIgnoreCase | components/project/FinancialRecordsTable.tsx:104-107 | description, trade and unit criteria that differ only in letter case show the same records |
| RecordsTable.CategoryIsCaseSensitive | components/project/FinancialRecordsTable.tsx:104-105 | the category filter is exact ("contractor" does not select "Contractor") while the description filter ignores case |
| RecordsTable.ComputeTotals | components/project/FinancialRecordsTable.tsx:156-159 | the totals are the sums of the amounts, of the positive amounts, and of the magnitudes of the negative amounts; credit and debit are non-negative; the balance is credit minus debit and equals the total amount |
| RecordsTable.AllKeysComplete | components/project/FinancialRecordsTable.tsx:44-57 | the key list names every filter field |
| RecordsTable.AllKeysDistinct | components/project/FinancialRecordsTable.tsx:44-57 | the key list names each filter field once |
| RecordsTable.ActiveFilterCount | components/project/FinancialRecordsTable.tsx:171 | the badge count is the number of filter fields that are not empty, at most 12 |
| RecordsTable.SetOfSetKeys | components/project/FinancialRecordsTable.tsx:171 | collecting the non-empty keys one by one gives the set of non-empty filter fields |
| RecordsTable.ActiveIffSomeField | components/project/FinancialRecordsTable.tsx:142 | the "filters active" flag holds exactly when some filter field is not empty |
| RecordsTable.ActiveFiltersAgree | components/project/FinancialRecordsTable.tsx:142 | the "filters active" flag holds exactly when the count is positive, and exactly when some filter field is not empty |
| RecordsTable.ClearedFiltersInactive | components/project/FinancialRecordsTable.tsx:125-142 | after clearing, no filter is active and the count is 0 |
| RecordsTable.SettingEmptyFieldCountsOnce | components/project/FinancialRecordsTable.tsx:171 | giving an empty filter a non-empty value raises the count by exactly one |
| RecordsTable.UniqueCategories | components/project/FinancialRecordsTable.tsx:89-90 | the category dropdown is sorted, has no duplicates, and lists exactly the categories that occur |
| RecordsTable.UniqueTrades | components/project/FinancialRecordsTable.tsx:91-92 | the trade dropdown is sorted, has no duplicates, and lists exactly the trades that occur |
| RecordsTable.UniqueUnits | components/project/FinancialRecordsTable.tsx:93-94 | the unit dropdown is sorted, has no duplicates, and lists exactly the units that occur |
| Reports.InsertByDate | components/reports/ReportsView.tsx:44 | inserting a transaction adds exactly that transaction to the multiset of the list |
| Reports.InsertByDateSorted | components/reports/ReportsView.tsx:44 | inserting into a list sorted newest first keeps it sorted newest first |
| Reports.SortByDateDesc | components/reports/ReportsView.tsx:44 | the result is a permutation of the input, ordered by instant, newest first |
| Reports.Selected | components/reports/ReportsView.tsx:30-42 | a transaction remains after the two filters exactly when it is in the input, falls on the chosen day (or no day is chosen) and has the chosen category ignoring case (or 'all' is chosen) |
| Reports.SelectedMultiset | components/reports/ReportsView.tsx:30-42 | each transaction occurs after the two filters as often as before if it passes both, otherwise not at all |
| Reports.FilteredTransactions | components/reports/ReportsView.tsx:27-45 | an empty list while the data is missing; otherwise sorted newest first, and holding each transaction that passes both filters as often as the input does and no other |
| Reports.NoFilterIsPermutation | components/reports/ReportsView.tsx:22-45 | with the initial filters (no day, category 'all') the report lists every transaction, reordered |
| Reports.DayFilterKeepsThatDay | components/reports/ReportsView.tsx:32-36 | a readable day filter keeps a transaction exactly when it falls on that calendar day and passes the category filter |
| Reports.UnreadableDayMatchesNothing | components/reports/ReportsView.tsx:32-36 | a day filter that is not a 'yyyy-MM-dd' day matches no transaction |
| Reports.CategoryFilterIgnoresCase | components/reports/ReportsView.tsx:38-42 | category filters that differ only in letter case give the same report, unless one of them is exactly 'all' (the sentinel is compared case-sensitively) |
| Reports.Summarize | components/reports/ReportsView.tsx:53-68 | zeros for an empty list; credit and debit are the sums over the list, the balance is credit minus debit, the count is the list length |
| Reports.SummaryAdditive | components/reports/ReportsView.tsx:58-66 | the summary of two lists joined is the sum of their summaries, field by field |
| Reports.SummaryNonNegative | components/reports/ReportsView.tsx:58-59 | non-negative credits and debits give non-negative totals |
| Reports.SummaryExample | components/reports/ReportsView.tsx:53-68 | credits 100 and 0 with debits 30 and 20 give credit 100, debit 50, balance 50, two entries |
| Reports.ReportCategories | components/reports/ReportsView.tsx:47-51 | an empty list while the data is missing; otherwise sorted, without duplicates, listing exactly the categories that occur |
| Dashboard.DistinctCategories | app/api/dashboard/stats/route.ts:16-21 | the distinct rows hold each category once and exactly the categories that occur |
| Dashboard.CountCategories | app/api/dashboard/stats/route.ts:24-32 | counting the distinct rows that satisfy a keyword test counts the set of occurring categories that satisfy it |
| Dashboard.ComputeStats | app/api/dashboard/stats/route.ts:6-39 | the project count is the number of projects; each class count is the number of occurring categories of that class, at most the number of distinct categories; the total spent is the sum of total costs, 0 with no projects |
| Dashboard.IsContractorCategory | app/api/dashboard/stats/route.ts:25-26 | a category is a contractor category exactly when "contractor" or "labour" occurs at some position of its lower-case form |
| Dashboard.IsSupplierCategory | app/api/dashboard/stats/route.ts:30-31 | a category is a supplier category exactly when "material" or "freight" occurs at some position of its lower-case form |
| Dashboard.ClassificationIgnoresCase | app/api/dashboard/stats/route.ts:24-32 | categories that differ only in letter case fall into the same classes |
| Dashboard.ClassesOverlap | app/api/dashboard/stats/route.ts:24-32 | the classes are not exclusive: "Labour Materials" counts once as a contractor and once as a supplier |
| Dashboard.TotalSpentAdditive | app/api/dashboard/stats/route.ts:8-38 | the total spent over two groups of projects is the sum of their totals |
| Dashboard.Unclassified | app/api/dashboard/stats/route.ts:24-32 | a category whose lower-case form lacks a letter of each keyword is in neither class |
| Dashboard.LabourIsContractor | app/api/dashboard/stats/route.ts:24-32 | "LabourTools" and "LabourWork" are contractor and not supplier categories |
| Dashboard.ContractorIsContractor | app/api/dashboard/stats/route.ts:24-32 | "Contractor" is a contractor and not a supplier category |
| Dashboard.FreightsIsSupplier | app/api/dashboard/stats/route.ts:24-32 | "Freights" is a supplier and not a contractor category |
| Dashboard.MaterialsIsSupplier | app/api/dashboard/stats/route.ts:24-32 | "Materials" is a supplier and not a contractor category |
| Dashboard.SeedUnclassified | prisma/seed.ts:44-220 | Expenses, Receiving, StealFixer, Refreshments and Payment are in neither class |
| Dashboard.SeedClassification | prisma/seed.ts:44-220 | of the seed's ten categories exactly LabourTools, Contractor and LabourWork are contractors, and exactly Freights and Materials are suppliers |
| Dashboard.SeedContractors | prisma/seed.ts:44-220 | over the seed's categories the contractor categories are LabourTools, Contractor and LabourWork |
| Dashboard.SeedSuppliers | prisma/seed.ts:44-220 | over the seed's categories the supplier categories are Freights and Materials |
| Dashboard.SeedStats | app/api/dashboard/stats/route.ts:24-39 | over transactions with the seed's categories, the dashboard reports 3 contractors and 2 suppliers |
| RecordForm.HandleInputChange | components/project/CreateFinancialRecordDialog.tsx:101-103 | the edited field takes the new value and the other fields keep theirs |
| RecordForm.OnOpenChange | components/project/CreateFinancialRecordDialog.tsx:48-56 | opening the dialog sets the date to today and leaves the other fields alone; closing changes nothing |
| RecordForm.RequestDateOfFormatted | components/project/CreateFinancialRecordDialog.tsx:69 | reading back the 'yyyy-MM-dd' text of any displayable day gives midnight UTC of that day |
| RecordForm.BuildPayload | components/project/CreateFinancialRecordDialog.tsx:67-77 | the request carries the project id and the typed text fields, the date read as by `new Date`, and the unit rate and quantity read with `parseFloat(..)`, NaN becoming 0; its total is their product and equals the total shown in the form |
| RecordForm.HandleSubmit | components/project/CreateFinancialRecordDialog.tsx:58-99 | an empty category sends nothing and shows "Please select a category"; otherwise the payload is sent; after success the form is cleared with today's date, the success toast is shown and the dialog closes; after failure the form is kept, the error toast is shown and the dialog stays open |
| RecordForm.SubmitDisabled | components/project/CreateFinancialRecordDialog.tsx:221 | the button is disabled exactly when a create is pending, the description is only whitespace, or no category is chosen |
| RecordForm.EnabledSubmitSendsRequest | components/project/CreateFinancialRecordDialog.tsx:61-77 | the handler, once the button is enabled, always sends a request |
| RecordForm.BlankDescriptionOnlyBlockedByButton | components/project/CreateFinancialRecordDialog.tsx:61-64 | a whitespace-only description with a category disables the button, but the handler itself would still send the request |
| RecordForm.TotalAmount | components/project/CreateFinancialRecordDialog.tsx:46 | the total is 0 when the price or the quantity reads as NaN, and otherwise the product of the two numbers read |
| RecordForm.FreshFormTotalIsZero | components/project/CreateFinancialRecordDialog.tsx:33-56 | a freshly opened dialog shows a total of 0 |
| RecordForm.TotalExample | components/project/CreateFinancialRecordDialog.tsx:46 | price "12.5" and quantity "4" give a total of 50 |
| RecordForm.TotalIgnoresOtherFields | components/project/CreateFinancialRecordDialog.tsx:46 | editing any field but price or quantity leaves the total unchanged |
| RecordForm.OpenedFormSendsToday | components/project/CreateFinancialRecordDialog.tsx:48-69 | opening the dialog on a day and submitting sends midnight UTC of that day as the record date |
| RecordForm.SuccessThenResubmit | components/project/CreateFinancialRecordDialog.tsx:83-91 | after a successful create the category is empty, so the button is disabled and a repeated submit sends nothing |
| Text.TrimStart | components/project/CreateFinancialRecordDialog.tsx:221 | the result is a suffix of the input, everything removed is whitespace, and it is empty or starts with a non-space |
| Text.TrimEnd | components/project/CreateFinancialRecordDialog.tsx:221 | the result is a prefix of the input, everything removed is whitespace, and it is empty or ends with a non-space |
| Text.TrimEmptyIff | components/project/CreateFinancialRecordDialog.tsx:221 | trimming gives the empty string exactly when the text is all whitespace |
| Text.ToLower | components/project/FinancialRecordsTable.tsx:104 | lower-casing keeps the length and leaves no ASCII capital letter |
| Text.ToLowerIdempotent | components/project/FinancialRecordsTable.tsx:104 | lower-casing a lower-cased text changes nothing |
| Text.SameLowerChar | components/reports/ReportsView.tsx:40 | two characters lower to the same character exactly when they are the same letter up to case |
| Text.SameLowerIff | components/reports/ReportsView.tsx:40 | two texts have equal lower-case forms exactly when they differ only in letter case |
| Text.LowerLacks | app/api/dashboard/stats/route.ts:25-31 | a character that no character lowers to is absent from the lower-cased text |
| Text.CaseVariantSameLower | components/reports/ReportsView.tsx:40 | texts that differ only in letter case have the same lower-case form |
| Text.ContainsIff | components/project/FinancialRecordsTable.tsx:104 | `includes` holds exactly when the substring occurs at some position |
| Text.MissingCharNotContained | app/api/dashboard/stats/route.ts:25-31 | a text lacking some character of the substring does not include it |
| Text.StrLeReflexive | components/project/FinancialRecordsTable.tsx:90 | the string order is reflexive |
| Text.StrLeTotal | components/project/FinancialRecordsTable.tsx:90 | any two strings are comparable |
| Text.StrLeAntisymmetric | components/project/FinancialRecordsTable.tsx:90 | strings ordered both ways are equal |
| Text.StrLeTransitive | components/project/FinancialRecordsTable.tsx:90 | the string order is transitive |
| Seqs.Filter | components/project/FinancialRecordsTable.tsx:98 | the kept elements satisfy the test and are exactly the input's elements that do |
| Seqs.FilterIsSubseq | components/project/FinancialRecordsTable.tsx:98 | filtering keeps the input's order |
| Seqs.FilterKeepsAll | components/project/FinancialRecordsTable.tsx:98 | a test that holds everywhere keeps the whole input |
| Seqs.FilterExtensional | components/project/FinancialRecordsTable.tsx:98 | tests that agree on every element keep the same elements |
| Seqs.FilterMonotone | components/project/FinancialRecordsTable.tsx:98 | a stronger test keeps a subsequence of what a weaker one keeps |
| Seqs.FilterMultiset | components/reports/ReportsView.tsx:33-41 | filtering keeps every copy of an element that passes and no copy of one that fails |
| Seqs.SubseqLength | components/project/FinancialRecordsTable.tsx:175 | a subsequence is never longer, so "Showing n of m" has n at most m |
| Seqs.SumOfAppend | components/reports/ReportsView.tsx:58-59 | the sum over two lists joined is the sum of the two sums |
| Seqs.SumOfNonNegative | components/project/FinancialRecordsTable.tsx:157-158 | a sum of non-negative terms is non-negative |
| Seqs.Distinct | components/project/FinancialRecordsTable.tsx:90 | `[...new Set(s)]` has no duplicates, holds exactly the values of `s`, and is no longer than `s` |
| Seqs.ValuesWhere | app/api/dashboard/stats/route.ts:24-32 | the collected set holds exactly the input's values that satisfy the test |
| Seqs.NoDuplicatesTail | app/api/dashboard/stats/route.ts:16-21 | the tail of a duplicate-free list is duplicate-free and does not hold the head |
| Seqs.CountDistinct | app/api/dashboard/stats/route.ts:24-32 | on a duplicate-free list, counting the elements that pass a test counts the set of values that pass |
| Sorting.Insert | components/project/FinancialRecordsTable.tsx:90 | inserting adds exactly one copy of the new element to the multiset of elements |
| Sorting.InsertSorted | components/project/FinancialRecordsTable.tsx:90 | inserting into a sorted list keeps it sorted |
| Sorting.InsertNoDuplicates | components/project/FinancialRecordsTable.tsx:90 | inserting a new value into a duplicate-free list keeps it duplicate-free |
| Sorting.Sort | components/project/FinancialRecordsTable.tsx:90 | `sort()` returns a permutation of its input (same multiset) in the default string order |
| Sorting.SortNoDuplicates | components/project/FinancialRecordsTable.tsx:90 | sorting a duplicate-free list keeps it duplicate-free |
| Sorting.UniqueSorted | components/project/FinancialRecordsTable.tsx:89-94 | `[...new Set(s)].sort()` is strictly increasing, holds exactly the values of `s`, and is no longer than `s` |
| Numbers.Pad | components/reports/ReportsView.tsx:34 | a zero-padded number is made of digits only |
| Numbers.PadValue | components/reports/ReportsView.tsx:34 | a zero-padded number reads back as the number |
| Numbers.PadLength | components/reports/ReportsView.tsx:34 | a number below 10^width pads to exactly `width` digits |
| Numbers.PadOfDigits | components/reports/ReportsView.tsx:34 | padding the value of a digit string back to its length gives the same string |
| Numbers.DigitRun | components/project/FinancialRecordsTable.tsx:110 | the leading run of digits is a digit string followed by a rest that does not start with a digit |
| Numbers.ParseFloatShowNat | components/project/FinancialRecordsTable.tsx:110-115 | a decimal number followed by a character that cannot continue it reads as that number |
| Numbers.ParseUnsignedDigits | components/project/FinancialRecordsTable.tsx:110 | an unsigned digit string reads as its value |
| Numbers.LiteralOfWhole | components/project/FinancialRecordsTable.tsx:110 | a literal with no fraction and no exponent is its whole part |
| Numbers.DigitRunOfDigits | components/project/FinancialRecordsTable.tsx:110 | the digit run of digits followed by a non-digit is those digits |
| Numbers.ParseFloat | components/project/FinancialRecordsTable.tsx:110-115 | text that is empty or only white space reads as NaN |
| Numbers.ParseSigned | components/project/CreateFinancialRecordDialog.tsx:74-75 | once the white space is skipped, empty text reads as NaN |
| Numbers.ParseFloatNeedsDigit | components/project/FinancialRecordsTable.tsx:110-115 | any text `parseFloat` reads as a number contains a decimal digit |
| Numbers.ParseSignedNeedsDigit | components/project/CreateFinancialRecordDialog.tsx:74-75 | a signed literal read as a number contains a decimal digit |
| Numbers.ParseUnsignedHasDigit | components/project/CreateFinancialRecordDialog.tsx:74-75 | an unsigned decimal literal holds at least one digit |
| Numbers.ParseFloatNoNumber | components/project/FinancialRecordsTable.tsx:110 | text starting with a character that cannot begin a number reads as NaN |
| Numbers.ParseFloatEmpty | components/project/CreateFinancialRecordDialog.tsx:46 | the empty string reads as NaN, so the fallback gives 0 |
| Numbers.ParseFloatInteger | components/project/CreateFinancialRecordDialog.tsx:46 | "4" reads as 4 |
| Numbers.ParseFloatFraction | components/project/CreateFinancialRecordDialog.tsx:46 | "12.5" reads as 12.5 |
| Numbers.ParseFloatSkipsSpace | components/project/FinancialRecordsTable.tsx:110 | leading whitespace is skipped |
| Numbers.ParseFloatNegative | components/project/FinancialRecordsTable.tsx:110 | a minus sign negates the number read |
| Dates.EpochDayOrigin | components/reports/ReportsView.tsx:44 | 1970-01-01 is day 0 of the epoch |
| Dates.EpochDayExamples | components/reports/ReportsView.tsx:44 | 2000-03-01 and 2024-01-15 are days 11017 and 19737 after the epoch |
| Dates.FormatIsoDate | components/reports/ReportsView.tsx:34 | a valid day is written as ten characters: four digits, '-', two digits, '-', two digits |
| Dates.ParseIsoDate | components/project/FinancialRecordsTable.tsx:100-101 | a text read as a day gives a valid calendar day whose year, month and day, zero-padded to 4, 2 and 2 digits, are the text's three fields |
| Dates.FieldWidths | components/reports/ReportsView.tsx:34 | the year, month and day of a valid day fill exactly four, two and two digits |
| Dates.FormatThenParse | components/project/FinancialRecordsTable.tsx:100-101 | a displayable day written 'yyyy-MM-dd' parses back to that day |
| Dates.ParseThenFormat | components/reports/ReportsView.tsx:34 | a 'yyyy-MM-dd' text that parses to a day of year 1 or later is exactly that day's text |
| Dates.FormatInjective | components/reports/ReportsView.tsx:34 | distinct displayable days have distinct 'yyyy-MM-dd' texts |

## Left out

- Persistence, HTTP and authentication: the Prisma queries become input sequences, and error responses (status 500) are not modelled.
- Rendering, styling, toasts as UI, and the `console` logging: the toasts appear only as values in the submit outcome.
- The clock: "today" enters as a parameter of `RecordForm.OnOpenChange` and, separately, of `RecordForm.HandleSubmit`, as the code reads the clock at each place. Nothing ties the two values together; only `RecordForm.OpenedFormSendsToday` passes the same day to both.
- RecordForm.HandleSubmit: the browser's own form validation is not modelled. The inputs are marked `required`, and price and quantity are `type="number"` with `step="0.01"`. That validation can cancel the submit event before the handler runs, for example when trade, unit, price or quantity is empty or a price has three decimals. The model's handler is the code that runs once the event gets through.
- The create mutation and its `isPending` state: the outcome and the pending flag are parameters.
- Floating point: amounts and totals are exact reals. No rounding, no `-0`, no `Infinity`; `parseFloat("Infinity")` reads as NaN in the model.
- Numbers.ParseFloatShowNat: only decimal integers are related to their text in general. Fractions are shown by single examples only. The exponent part (`1e3`) is read by the model, but no lemma states its value.
- Text.ToLower: lower-cases the ASCII letters only, where `toLowerCase` maps all of Unicode.
- Text.StrLeTotal: the default sort compares UTF-16 code units, and the model compares characters. The two agree outside the supplementary planes.
- Time zones: every date is taken in UTC. In the code the report formats a date in the viewer's local zone, and `new Date('yyyy-MM-dd')` is UTC midnight.
- Dates.ParseIsoDate: only the 'yyyy-MM-dd' text a date input produces is read. Other text that `new Date` would accept reads as an invalid date.
- Dates.FormatThenParse: year 0 and years after 9999 are excluded; their ISO text differs from the four-digit form.
- The running-balance accumulator: no code in these files computes one. The records table's "balance" is credit minus debit.
- Reports.SortByDateDesc: sorted and a permutation are proved. Stability for equal instants, which `Array.prototype.sort` guarantees, is not proved.
- The `createdAt`/`updatedAt` columns and the remaining entity fields play no part in this logic and are not modelled.
- `totalSpentResult._sum.totalCost || 0`: the store's null sum for no projects becomes the empty sum, which is 0.
- Dates.Instant: the milliseconds since midnight are not bounded by one day. Stored timestamps always are; an instant past the end of its day would be read by `getTime()` as the next day and by the report's day filter as its own day.
- The empty-records early return of the table only changes rendering and is not modelled.

=== FILE: dashboard.dfy ===
/** The dashboard statistics: the project count, the total spent, and the
    number of distinct transaction categories that look like contractors or
    suppliers by keyword. The two store queries become input sequences. */
module Dashboard {
  import opened Text
  import opened Seqs
  import opened Ledger

  /** A contractor category: "contractor" or "labour" occurs somewhere in
      its lower-case form. */
  predicate IsContractorCategory(category: string): (b: bool)
    ensures b <==> (exists i :: OccursAt(ToLower(category), "contractor", i))
                   || (exists i :: OccursAt(ToLower(category), "labour", i))
  {
    ContainsIff(ToLower(category), "contractor");
    ContainsIff(ToLower(category), "labour");
    Contains(ToLower(category), "contractor") || Contains(ToLower(category), "labour")
  }

  /** A supplier category: "material" or "freight" occurs somewhere in its
      lower-case form. */
  predicate IsSupplierCategory(category: string): (b: bool)
    ensures b <==> (exists i :: OccursAt(ToLower(category), "material", i))
                   || (exists i :: OccursAt(ToLower(category), "freight", i))
  {
    ContainsIff(ToLower(category), "material");
    ContainsIff(ToLower(category), "freight");
    Contains(ToLower(category), "material") || Contains(ToLower(category), "freight")
  }

  datatype DashboardStats = DashboardStats(
    totalProjects: nat,
    totalContractors: nat,
    totalSuppliers: nat,
    totalSpent: real)

  /** The rows of the `distinct: ['category']` query: each category once. */
  function DistinctCategories(ts: seq<Transaction>): (r: seq<string>)
    ensures NoDuplicates(r)
    ensures forall c :: c in r <==> c in CategoryValues(ts)
  {
    Distinct(CategoryValues(ts))
  }

  function TotalCostOf(p: Project): real {
    p.totalCost
  }

  /** The categories occurring in `ts` that satisfy `p`. */
  function CategoriesWhere(ts: seq<Transaction>, p: string -> bool): set<string> {
    set c | c in CategoryValues(ts) && p(c)
  }

  /** Counting the distinct rows that satisfy `p` counts the categories
      satisfying `p` that occur at all. */
  lemma CountCategories(p: string -> bool, ts: seq<Transaction>)
    ensures |Filter(p, DistinctCategories(ts))| == |CategoriesWhere(ts, p)|
    ensures |Filter(p, DistinctCategories(ts))| <= |DistinctCategories(ts)|
  {
    var d := DistinctCategories(ts);
    CountDistinct(p, d);
    assert ValuesWhere(p, d) == CategoriesWhere(ts, p);
  }

  /** The `stats` object. Each count is the number of distinct categories of
      its class, and at most the number of distinct categories; the total
      spent is the sum of the projects' costs, 0 when there are none. */
  function ComputeStats(projects: seq<Project>, ts: seq<Transaction>): (r: DashboardStats)
    ensures r.totalProjects == |projects|
    ensures r.totalContractors == |CategoriesWhere(ts, IsContractorCategory)|
    ensures r.totalSuppliers == |CategoriesWhere(ts, IsSupplierCategory)|
    ensures r.totalContractors <= |DistinctCategories(ts)| && r.totalSuppliers <= |DistinctCategories(ts)|
    ensures r.totalSpent == SumOf(projects, TotalCostOf)
    ensures |projects| == 0 ==> r.totalSpent == 0.0
  {
    var categories := DistinctCategories(ts);
    CountCategories(IsContractorCategory, ts);
    CountCategories(IsSupplierCategory, ts);
    DashboardStats(
      |projects|,
      |Filter(IsContractorCategory, categories)|,
      |Filter(IsSupplierCategory, categories)|,
      SumOf(projects, TotalCostOf))
  }

  /** Classification ignores letter case. */
  lemma ClassificationIgnoresCase(a: string, b: string)
    requires CaseVariant(a, b)
    ensures IsContractorCategory(a) == IsContractorCategory(b)
    ensures IsSupplierCategory(a) == IsSupplierCategory(b)
  {
    CaseVariantSameLower(a, b);
  }

  /** "Labour Materials" holds a keyword of each class. */
  lemma LabourMaterialsInBoth()
    ensures IsContractorCategory("Labour Materials") && IsSupplierCategory("Labour Materials")
  {
    var lower := ToLower("Labour Materials");
    assert lower == "labour materials";
    assert OccursAt(lower, "labour", 0);
    assert OccursAt(lower, "material", 7);
  }

  /** The classes are not exclusive: one category can count for both. */
  lemma ClassesOverlap(t: Transaction)
    requires t.category == "Labour Materials"
    ensures ComputeStats([], [t]) == DashboardStats(0, 1, 1, 0.0)
  {
    LabourMaterialsInBoth();
    var vs := CategoryValues([t]);
    assert vs == ["Labour Materials"];
    assert CategoriesWhere([t], IsContractorCategory) == {"Labour Materials"};
    assert CategoriesWhere([t], IsSupplierCategory) == {"Labour Materials"};
  }

  /** The total spent adds up across projects. */
  lemma TotalSpentAdditive(a: seq<Project>, b: seq<Project>, ts: seq<Transaction>)
    ensures ComputeStats(a + b, ts).totalSpent == ComputeStats(a, ts).totalSpent + ComputeStats(b, ts).totalSpent
  {
    SumOfAppend(a, b, TotalCostOf);
  }

  /** The distinct transaction categories of the seed data. */
  predicate SeedCategory(c: string) {
    c in ["Expenses", "Receiving", "LabourTools", "Freights", "StealFixer",
          "Contractor", "LabourWork", "Refreshments", "Payment", "Materials"]
  }

  /** A category whose lower-case form misses one letter of each keyword
      belongs to neither class. */
  lemma Unclassified(s: string, c1: char, c2: char, c3: char, c4: char)
    requires forall i :: 0 <= i < |s| ==>
      LowerChar(s[i]) != c1 && LowerChar(s[i]) != c2 && LowerChar(s[i]) != c3 && LowerChar(s[i]) != c4
    requires c1 in "contractor" && c2 in "labour" && c3 in "material" && c4 in "freight"
    ensures !IsContractorCategory(s) && !IsSupplierCategory(s)
  {
    LowerLacks(s, c1);
    LowerLacks(s, c2);
    LowerLacks(s, c3);
    LowerLacks(s, c4);
    MissingCharNotContained(ToLower(s), "contractor", c1);
    MissingCharNotContained(ToLower(s), "labour", c2);
    MissingCharNotContained(ToLower(s), "material", c3);
    MissingCharNotContained(ToLower(s), "freight", c4);
  }

  lemma LabourIsContractor(c: string)
    requires c == "LabourTools" || c == "LabourWork"
    ensures IsContractorCategory(c) && !IsSupplierCategory(c)
  {
    assert ToLower(c)[..6] == "labour";
    LowerLacks(c, 'm');
    LowerLacks(c, 'f');
    MissingCharNotContained(ToLower(c), "material", 'm');
    MissingCharNotContained(ToLower(c), "freight", 'f');
  }

  lemma ContractorIsContractor(c: string)
    requires c == "Contractor"
    ensures IsContractorCategory(c) && !IsSupplierCategory(c)
  {
    assert ToLower(c)[..10] == "contractor";
    LowerLacks(c, 'm');
    LowerLacks(c, 'f');
    MissingCharNotContained(ToLower(c), "material", 'm');
    MissingCharNotContained(ToLower(c), "freight", 'f');
  }

  lemma FreightsIsSupplier(c: string)
    requires c == "Freights"
    ensures !IsContractorCategory(c) && IsSupplierCategory(c)
  {
    assert ToLower(c)[..7] == "freight";
    LowerLacks(c, 'c');
    LowerLacks(c, 'l');
    MissingCharNotContained(ToLower(c), "contractor", 'c');
    MissingCharNotContained(ToLower(c), "labour", 'l');
  }

  lemma MaterialsIsSupplier(c: string)
    requires c == "Materials"
    ensures !IsContractorCategory(c) && IsSupplierCategory(c)
  {
    assert ToLower(c)[..8] == "material";
    LowerLacks(c, 'c');
    LowerLacks(c, 'b');
    MissingCharNotContained(ToLower(c), "contractor", 'c');
    MissingCharNotContained(ToLower(c), "labour", 'b');
  }

  /** The seed categories that match no keyword. */
  lemma SeedUnclassified(c: string)
    requires c in ["Expenses", "Receiving", "StealFixer", "Refreshments", "Payment"]
    ensures !IsContractorCategory(c) && !IsSupplierCategory(c)
  {
    if c == "Expenses" {
      Unclassified(c, 'c', 'b', 'm', 'f');
    } else if c == "Receiving" {
      Unclassified(c, 't', 'b', 'm', 'f');
    } else if c == "StealFixer" {
      Unclassified(c, 'c', 'b', 'm', 'g');
    } else if c == "Refreshments" {
      Unclassified(c, 'c', 'l', 'a', 'g');
    } else {
      Unclassified(c, 'c', 'l', 'i', 'f');
    }
  }

  /** How each seed category is classified. */
  lemma SeedClassification(c: string)
    requires SeedCategory(c)
    ensures IsContractorCategory(c) <==> c == "LabourTools" || c == "Contractor" || c == "LabourWork"
    ensures IsSupplierCategory(c) <==> c == "Freights" || c == "Materials"
  {
    if c == "LabourTools" || c == "LabourWork" {
      LabourIsContractor(c);
    } else if c == "Contractor" {
      ContractorIsContractor(c);
    } else if c == "Freights" {
      FreightsIsSupplier(c);
    } else if c == "Materials" {
      MaterialsIsSupplier(c);
    } else {
      SeedUnclassified(c);
    }
  }

  lemma SeedContractors(ts: seq<Transaction>)
    requires forall c :: c in CategoryValues(ts) <==> SeedCategory(c)
    ensures CategoriesWhere(ts, IsContractorCategory) == {"LabourTools", "Contractor", "LabourWork"}
  {
    forall c
      ensures c in CategoriesWhere(ts, IsContractorCategory) <==> c in {"LabourTools", "Contractor", "LabourWork"}
    {
      if c in CategoryValues(ts) || c in {"LabourTools", "Contractor", "LabourWork"} {
        SeedClassification(c);
      }
    }
  }

  lemma SeedSuppliers(ts: seq<Transaction>)
    requires forall c :: c in CategoryValues(ts) <==> SeedCategory(c)
    ensures CategoriesWhere(ts, IsSupplierCategory) == {"Freights", "Materials"}
  {
    forall c
      ensures c in CategoriesWhere(ts, IsSupplierCategory) <==> c in {"Freights", "Materials"}
    {
      if c in CategoryValues(ts) || c in {"Freights", "Materials"} {
        SeedClassification(c);
      }
    }
  }

  /** Over transactions carrying exactly the seed's categories, the
      dashboard counts three contractor and two supplier categories. */
  lemma SeedStats(ts: seq<Transaction>)
    requires forall c :: c in CategoryValues(ts) <==> SeedCategory(c)
    ensures ComputeStats([], ts) == DashboardStats(0, 3, 2, 0.0)
  {
    SeedContractors(ts);
    SeedSuppliers(ts);
  }
}

=== FILE: dates.dfy ===
/** Calendar days and instants as the ledger views see JavaScript `Date`
    values, in UTC: `new Date("yyyy-MM-dd")` reading a day, `getTime()`
    ordering instants, and date-fns `format(date, 'yyyy-MM-dd')` writing a day. */
module Dates {
  import opened Wrappers
  import opened Numbers

  /** A day of the proleptic Gregorian calendar. */
  datatype CivilDate = CivilDate(year: int, month: nat, day: nat)

  /** A `Date`: a calendar day and the milliseconds since its midnight. */
  datatype Instant = Instant(date: CivilDate, msOfDay: nat)

  const MsPerDay: nat := 86400000

  predicate IsLeapYear(y: int) {
    y % 4 == 0 && (y % 100 != 0 || y % 400 == 0)
  }

  function DaysInMonth(y: int, m: nat): nat {
    if m == 2 then (if IsLeapYear(y) then 29 else 28)
    else if m == 4 || m == 6 || m == 9 || m == 11 then 30
    else 31
  }

  /** The days `new Date("yyyy-MM-dd")` accepts. */
  predicate ValidDate(d: CivilDate) {
    0 <= d.year <= 9999 && 1 <= d.month <= 12 && 1 <= d.day <= DaysInMonth(d.year, d.month)
  }

  /** The days that 'yyyy-MM-dd' both writes and reads back: year 0 is
      excluded because date-fns prints it as year 1 of the era before. */
  predicate Displayable(d: CivilDate) {
    ValidDate(d) && d.year >= 1
  }

  /** Days since 1970-01-01 (the days-from-civil algorithm). */
  function EpochDay(d: CivilDate): int {
    var y := if d.month <= 2 then d.year - 1 else d.year;
    var era := y / 400;
    var yearOfEra := y - era * 400;
    var shiftedMonth := (d.month + 9) % 12;
    var dayOfYear := (153 * shiftedMonth + 2) / 5 + d.day - 1;
    var dayOfEra := yearOfEra * 365 + yearOfEra / 4 - yearOfEra / 100 + dayOfYear;
    era * 146097 + dayOfEra - 719468
  }

  /** `getTime()`: milliseconds since the epoch. */
  function Millis(t: Instant): int {
    EpochDay(t.date) * MsPerDay + t.msOfDay
  }

  /** `new Date("yyyy-MM-dd")`: the first instant of the day. */
  function Midnight(d: CivilDate): Instant {
    Instant(d, 0)
  }

  /** The epoch is day 0. */
  lemma EpochDayOrigin()
    ensures EpochDay(CivilDate(1970, 1, 1)) == 0
  {
  }

  /** A day just after a 400-year leap day, and a day in January. */
  lemma EpochDayExamples()
    ensures EpochDay(CivilDate(2000, 3, 1)) == 11017
    ensures EpochDay(CivilDate(2024, 1, 15)) == 19737
  {
    assert EpochDay(CivilDate(2000, 3, 1)) == 11017;
  }

  /** `format(date, 'yyyy-MM-dd')`: the era year zero-padded to four digits,
      month and day to two. */
  function FormatIsoDate(d: CivilDate): (s: string)
    ensures ValidDate(d) ==>
              |s| == 10 && s[4] == '-' && s[7] == '-'
              && AllDigits(s[..4]) && AllDigits(s[5..7]) && AllDigits(s[8..])
  {
    var y, m, dd := Pad(if d.year > 0 then d.year else 1 - d.year, 4), Pad(d.month, 2), Pad(d.day, 2);
    FieldWidths(d);
    assert |y| == 4 && |m| == 2 && |dd| == 2 ==>
             (y + "-" + m + "-" + dd)[..4] == y && (y + "-" + m + "-" + dd)[5..7] == m
             && (y + "-" + m + "-" + dd)[8..] == dd;
    y + "-" + m + "-" + dd
  }

  /** The year, month and day of a valid date fill four, two and two digits. */
  lemma FieldWidths(d: CivilDate)
    ensures ValidDate(d) ==>
              |Pad(if d.year > 0 then d.year else 1 - d.year, 4)| == 4
              && |Pad(d.month, 2)| == 2 && |Pad(d.day, 2)| == 2
  {
    if ValidDate(d) {
      assert Pow10(4) == 10000 && Pow10(2) == 100;
      PadLength(if d.year > 0 then d.year else 1 - d.year, 4);
      PadLength(d.month, 2);
      PadLength(d.day, 2);
    }
  }

  /** `new Date(s)` for the 'yyyy-MM-dd' strings a date input produces; None
      is an Invalid Date. */
  function ParseIsoDate(s: string): (r: Option<CivilDate>)
    ensures r.Some? ==> ValidDate(r.value)
    ensures r.Some? ==>
              |s| == 10 && Pad(r.value.year, 4) == s[..4] && Pad(r.value.month, 2) == s[5..7] && Pad(r.value.day, 2) == s[8..]
  {
    if |s| == 10 && s[4] == '-' && s[7] == '-'
       && AllDigits(s[..4]) && AllDigits(s[5..7]) && AllDigits(s[8..])
    then
      PadOfDigits(s[..4]);
      PadOfDigits(s[5..7]);
      PadOfDigits(s[8..]);
      var d := CivilDate(DigitsValue(s[..4]), DigitsValue(s[5..7]), DigitsValue(s[8..]));
      if ValidDate(d) then Some(d) else None
    else None
  }

  /** Writing a day and reading it back gives the same day. */
  lemma FormatThenParse(d: CivilDate)
    requires Displayable(d)
    ensures ParseIsoDate(FormatIsoDate(d)) == Some(d)
  {
    assert Pow10(4) == 10000 && Pow10(2) == 100;
    var y, m, dd := Pad(d.year, 4), Pad(d.month, 2), Pad(d.day, 2);
    PadLength(d.year, 4);
    PadLength(d.month, 2);
    PadLength(d.day, 2);
    PadValue(d.year, 4);
    PadValue(d.month, 2);
    PadValue(d.day, 2);
    var s := FormatIsoDate(d);
    assert s == y + "-" + m + "-" + dd;
    assert s[..4] == y && s[5..7] == m && s[8..] == dd;
  }

  /** A string that reads as a day of year 1 or later is exactly how that day
      is written. */
  lemma ParseThenFormat(s: string, d: CivilDate)
    requires ParseIsoDate(s) == Some(d) && d.year >= 1
    ensures FormatIsoDate(d) == s
  {
    PadOfDigits(s[..4]);
    PadOfDigits(s[5..7]);
    PadOfDigits(s[8..]);
    assert s == s[..4] + "-" + s[5..7] + "-" + s[8..];
  }

  /** Different displayable days are written differently. */
  lemma FormatInjective(d1: CivilDate, d2: CivilDate)
    requires Displayable(d1) && Displayable(d2)
    requires FormatIsoDate(d1) == FormatIsoDate(d2)
    ensures d1 == d2
  {
    FormatThenParse(d1);
    FormatThenParse(d2);
  }
}

=== FILE: ledger.dfy ===
/** The entities the ledger views read, as plain values. Amounts are exact
    reals; `createdAt`/`updatedAt` stamps are not modelled. */
module Ledger {
  import opened Dates

  datatype Project = Project(
    id: string,
    name: string,
    contractorCost: real,
    materialCost: real,
    totalCost: real,
    budget: real,
    variance: real)

  /** A contractor, vendor or supplier line item. The category is typed as
      'Contractor' | 'Vendor' | 'Supplier' but at run time is whatever string
      was stored, so it is kept as a string. */
  datatype FinancialRecord = FinancialRecord(
    id: string,
    projectId: string,
    date: Instant,
    description: string,
    category: string,
    trade: string,
    unit: string,
    unitRatePrice: real,
    qty: real,
    totalAmount: real)

  /** A ledger entry. `balance` is stored as entered; nothing in the views
      recomputes it. */
  datatype Transaction = Transaction(
    id: string,
    date: Instant,
    notes: string,
    category: string,
    credit: real,
    debit: real,
    balance: real,
    projectId: string)

  /** `transactions.map(t => t.category)`. */
  function CategoryValues(ts: seq<Transaction>): (r: seq<string>)
    ensures |r| == |ts|
    ensures forall i :: 0 <= i < |ts| ==> r[i] == ts[i].category
  {
    seq(|ts|, i requires 0 <= i < |ts| => ts[i].category)
  }
}

=== FILE: numbers.dfy ===
/** Decimal digits and the JavaScript `parseFloat` the filters and the record
    form apply to user-typed numbers. A result of None stands for NaN. */
module Numbers {
  import opened Wrappers
  import opened Text

  predicate IsDigit(c: char) {
    '0' <= c <= '9'
  }

  predicate AllDigits(s: string) {
    forall i :: 0 <= i < |s| ==> IsDigit(s[i])
  }

  function DigitValue(c: char): nat
    requires IsDigit(c)
  {
    c as int - '0' as int
  }

  function DigitChar(d: nat): char
    requires d < 10
  {
    (d + '0' as int) as char
  }

  function Pow10(n: nat): (r: nat)
    ensures r >= 1
  {
    if n == 0 then 1 else 10 * Pow10(n - 1)
  }

  /** The number a string of decimal digits denotes; the empty string is 0. */
  function DigitsValue(s: string): nat
    requires AllDigits(s)
  {
    if |s| == 0 then 0 else DigitsValue(s[..|s| - 1]) * 10 + DigitValue(s[|s| - 1])
  }

  /** The decimal digits of `n`, zero-padded on the left to at least `width`
      characters. */
  function Pad(n: nat, width: nat): (s: string)
    ensures AllDigits(s)
    decreases n + width
  {
    if n == 0 && width == 0 then []
    else Pad(n / 10, if width == 0 then 0 else width - 1) + [DigitChar(n % 10)]
  }

  /** `String(n)` for a natural number. */
  function ShowNat(n: nat): string {
    Pad(n, 1)
  }

  lemma {:induction false} PadValue(n: nat, width: nat)
    ensures DigitsValue(Pad(n, width)) == n
    decreases n + width
  {
    if !(n == 0 && width == 0) {
      var w := if width == 0 then 0 else width - 1;
      PadValue(n / 10, w);
      var s := Pad(n, width);
      assert s[..|s| - 1] == Pad(n / 10, w);
    }
  }

  lemma {:induction false} PadLength(n: nat, width: nat)
    requires n < Pow10(width)
    ensures |Pad(n, width)| == width
    decreases width
  {
    if width > 0 {
      PadLength(n / 10, width - 1);
    }
  }

  /** Reading a digit string and writing it back at the same width gives the
      same string. */
  lemma {:induction false} PadOfDigits(s: string)
    requires AllDigits(s)
    ensures Pad(DigitsValue(s), |s|) == s
  {
    if |s| > 0 {
      var p := s[..|s| - 1];
      var c := s[|s| - 1];
      PadOfDigits(p);
      var v := DigitsValue(s);
      assert v == DigitsValue(p) * 10 + DigitValue(c);
      assert v / 10 == DigitsValue(p) && v % 10 == DigitValue(c);
      assert Pad(v, |s|) == Pad(v / 10, |s| - 1) + [DigitChar(v % 10)];
      assert s == p + [c];
    }
  }

  /** The number of leading digits of `s`. */
  function DigitRun(s: string): (n: nat)
    ensures n <= |s|
    ensures AllDigits(s[..n])
    ensures n < |s| ==> !IsDigit(s[n])
  {
    if |s| > 0 && IsDigit(s[0]) then
      var k := DigitRun(s[1..]);
      assert s[..k + 1] == [s[0]] + s[1..][..k];
      k + 1
    else 0
  }

  /** Multiplication by ten to the power `e`, for a signed `e`. */
  function Scale(e: int): real {
    if e >= 0 then Pow10(e) as real else 1.0 / Pow10(-e) as real
  }

  /** The exponent part at the start of `s` (`e`/`E`, optional sign, digits);
      0 when there is none, as when `e` is not followed by a digit. */
  function ExponentOf(s: string): int {
    if |s| > 0 && (s[0] == 'e' || s[0] == 'E') then
      var v := s[1..];
      var negative := |v| > 0 && v[0] == '-';
      var w := if |v| > 0 && (v[0] == '-' || v[0] == '+') then v[1..] else v;
      var k := DigitRun(w);
      if negative then -(DigitsValue(w[..k]) as int) else DigitsValue(w[..k])
    else 0
  }

  /** The value of a literal with integer digits `whole`, fraction digits
      `frac` and the exponent read from `rest`. */
  function Literal(whole: string, frac: string, rest: string): real
    requires AllDigits(whole) && AllDigits(frac)
  {
    var mantissa := DigitsValue(whole) as real + DigitsValue(frac) as real / Pow10(|frac|) as real;
    mantissa * Scale(ExponentOf(rest))
  }

  /** The unsigned decimal literal at the start of `u`: digits* (. digits*)?
      exponent?, holding at least one digit before the exponent. */
  function ParseUnsigned(u: string): Option<real> {
    var n := DigitRun(u);
    var afterInt := u[n..];
    if |afterInt| > 0 && afterInt[0] == '.' then
      var frac := afterInt[1..];
      var m := DigitRun(frac);
      if n + m == 0 then None else Some(Literal(u[..n], frac[..m], frac[m..]))
    else if n == 0 then None
    else Some(Literal(u[..n], [], afterInt))
  }

  /** `parseFloat`: skip leading white space, read an optional sign, then the
      longest unsigned decimal literal. None is NaN: no such literal. */
  function ParseFloat(s: string): (r: Option<real>)
    ensures AllSpace(s) ==> r == None
  {
    ParseSigned(TrimStart(s))
  }

  /** What `parseFloat` reads once the leading white space is skipped: an
      optional sign, then the unsigned literal. */
  function ParseSigned(t: string): (r: Option<real>)
    ensures |t| == 0 ==> r == None
  {
    var negative := |t| > 0 && t[0] == '-';
    var u := if |t| > 0 && (t[0] == '-' || t[0] == '+') then t[1..] else t;
    match ParseUnsigned(u)
    case None => None
    case Some(v) => Some(if negative then -v else v)
  }

  /** A text read as a number contains a decimal digit. */
  lemma ParseFloatNeedsDigit(s: string)
    requires ParseFloat(s).Some?
    ensures exists i :: 0 <= i < |s| && IsDigit(s[i])
  {
    var t := TrimStart(s);
    ParseSignedNeedsDigit(t);
    var i :| 0 <= i < |t| && IsDigit(t[i]);
    assert IsDigit(s[|s| - |t| + i]);
  }

  lemma ParseSignedNeedsDigit(t: string)
    requires ParseSigned(t).Some?
    ensures exists i :: 0 <= i < |t| && IsDigit(t[i])
  {
    var u := if |t| > 0 && (t[0] == '-' || t[0] == '+') then t[1..] else t;
    ParseUnsignedHasDigit(u);
    var i :| 0 <= i < |u| && IsDigit(u[i]);
    assert IsDigit(t[|t| - |u| + i]);
  }

  /** An unsigned literal holds at least one digit. */
  lemma ParseUnsignedHasDigit(u: string)
    ensures ParseUnsigned(u).Some? ==> exists i :: 0 <= i < |u| && IsDigit(u[i])
  {
    var n := DigitRun(u);
    if n > 0 {
      assert IsDigit(u[..n][0]);
    } else if ParseUnsigned(u).Some? {
      var frac := u[1..];
      var m := DigitRun(frac);
      assert IsDigit(frac[..m][0]);
      assert IsDigit(u[1]);
    }
  }

  /** `parseFloat(s) || 0`: NaN becomes 0. */
  function ParseOrZero(s: string): real {
    ParseFloat(s).GetOr(0.0)
  }

  /** A natural number written in decimal, followed by anything that cannot
      continue a number, reads back as that number (`parseFloat("12kg") == 12`). */
  lemma ParseFloatShowNat(n: nat, rest: string)
    requires |rest| > 0 ==> !IsDigit(rest[0]) && rest[0] !in ".eE"
    ensures ParseFloat(ShowNat(n) + rest) == Some(n as real)
  {
    var d := ShowNat(n);
    var s := d + rest;
    PadValue(n, 1);
    assert |d| > 0 && IsDigit(d[0]);
    assert s[0] == d[0] && !IsJsSpace(s[0]) && s[0] != '-' && s[0] != '+';
    assert TrimStart(s) == s;
    ParseUnsignedDigits(d, rest);
  }

  lemma ParseUnsignedDigits(d: string, rest: string)
    requires |d| > 0 && AllDigits(d)
    requires |rest| > 0 ==> !IsDigit(rest[0]) && rest[0] !in ".eE"
    ensures ParseUnsigned(d + rest) == Some(DigitsValue(d) as real)
  {
    var s := d + rest;
    DigitRunOfDigits(d, rest);
    var n := DigitRun(s);
    assert s[..n] == d && s[n..] == rest;
    assert !(|rest| > 0 && rest[0] == '.');
    LiteralOfWhole(d, rest);
  }

  lemma LiteralOfWhole(d: string, rest: string)
    requires AllDigits(d)
    requires |rest| > 0 ==> rest[0] !in "eE"
    ensures Literal(d, [], rest) == DigitsValue(d) as real
  {
    assert ExponentOf(rest) == 0;
  }

  lemma {:induction false} DigitRunOfDigits(d: string, rest: string)
    requires AllDigits(d)
    requires |rest| > 0 ==> !IsDigit(rest[0])
    ensures DigitRun(d + rest) == |d|
  {
    if |d| > 0 {
      assert (d + rest)[1..] == d[1..] + rest;
      DigitRunOfDigits(d[1..], rest);
    } else {
      assert d + rest == rest;
    }
  }

  /** A string whose first character can start neither white space nor a
      number is NaN. */
  lemma ParseFloatNoNumber(s: string)
    requires |s| > 0 && !IsJsSpace(s[0]) && !IsDigit(s[0]) && s[0] !in "+-."
    ensures ParseFloat(s) == None
  {
    assert TrimStart(s) == s;
  }

  /** An empty field is NaN, so `parseFloat("") || 0` is 0. */
  lemma ParseFloatEmpty()
    ensures ParseFloat("") == None
    ensures ParseOrZero("") == 0.0
  {
  }

  lemma ParseFloatInteger()
    ensures ParseFloat("4") == Some(4.0)
  {
    assert TrimStart("4") == "4";
    ParseUnsignedDigits("4", "");
    assert "4" + "" == "4";
  }

  lemma ParseFloatFraction()
    ensures ParseFloat("12.5") == Some(12.5)
  {
    assert TrimStart("12.5") == "12.5";
    DigitRunOfDigits("12", ".5");
    DigitRunOfDigits("5", "");
  }

  /** Leading white space does not change what `parseFloat` reads. */
  lemma ParseFloatSkipsSpace(c: char, s: string)
    requires IsJsSpace(c)
    ensures ParseFloat([c] + s) == ParseFloat(s)
  {
    assert ([c] + s)[1..] == s;
  }

  /** A minus sign negates the number that follows it. */
  lemma ParseFloatNegative(n: nat)
    ensures ParseFloat("-" + ShowNat(n)) == Some(-(n as real))
  {
    var d := ShowNat(n);
    PadValue(n, 1);
    assert |d| > 0 && IsDigit(d[0]);
    var s := "-" + d;
    assert TrimStart(s) == s;
    assert s[1..] == d + "";
    ParseUnsignedDigits(d, "");
    assert ParseSigned(s) == Some(-(n as real));
  }
}

=== FILE: record_form.dfy ===
/** The "Add Financial Record" dialog: the form state, the derived total
    amount, the submit handler with its category guard, the request payload,
    the reset after a successful create, and the submit button's disabled
    condition. The clock, the create mutation and the toasts are parameters
    or plain results. */
module RecordForm {
  import opened Wrappers
  import opened Text
  import opened Numbers
  import opened Dates

  /** The form fields, all held as the text the inputs produced. */
  datatype FormData = FormData(
    date: string,
    description: string,
    category: string,
    trade: string,
    unit: string,
    unitRatePrice: string,
    qty: string)

  datatype FormField =
    | DateField | DescriptionField | CategoryField | TradeField
    | UnitField | UnitRatePriceField | QtyField

  /** The state the dialog starts in: every field empty. */
  const EmptyForm := FormData("", "", "", "", "", "", "")

  function Field(form: FormData, k: FormField): string {
    match k
    case DateField => form.date
    case DescriptionField => form.description
    case CategoryField => form.category
    case TradeField => form.trade
    case UnitField => form.unit
    case UnitRatePriceField => form.unitRatePrice
    case QtyField => form.qty
  }

  /** `handleInputChange`: one field takes the new value, the others keep
      theirs. */
  function HandleInputChange(form: FormData, k: FormField, value: string): (r: FormData)
    ensures Field(r, k) == value
    ensures forall j :: j != k ==> Field(r, j) == Field(form, j)
  {
    match k
    case DateField => form.(date := value)
    case DescriptionField => form.(description := value)
    case CategoryField => form.(category := value)
    case TradeField => form.(trade := value)
    case UnitField => form.(unit := value)
    case UnitRatePriceField => form.(unitRatePrice := value)
    case QtyField => form.(qty := value)
  }

  /** The effect run when `open` changes: opening the dialog sets the date to
      `today`, the clock's 'yyyy-MM-dd' string; nothing else changes. */
  function OnOpenChange(form: FormData, open: bool, today: string): (r: FormData)
    ensures open ==> r.date == today
    ensures !open ==> r == form
    ensures forall k :: k != DateField ==> Field(r, k) == Field(form, k)
  {
    if open then form.(date := today) else form
  }

  /** The amount of a record: its unit rate times its quantity. */
  function LineTotal(unitRatePrice: real, qty: real): real {
    unitRatePrice * qty
  }

  /** The total shown in the form: `(parseFloat(price) || 0) * (parseFloat(qty) || 0)`. */
  function TotalAmount(form: FormData): (r: real)
    ensures ParseFloat(form.unitRatePrice) == None || ParseFloat(form.qty) == None ==> r == 0.0
    ensures ParseFloat(form.unitRatePrice).Some? && ParseFloat(form.qty).Some? ==>
              r == LineTotal(ParseFloat(form.unitRatePrice).value, ParseFloat(form.qty).value)
  {
    LineTotal(ParseOrZero(form.unitRatePrice), ParseOrZero(form.qty))
  }

  /** The body of the create request. `date` is None where `new Date` gives
      an invalid date. */
  datatype Payload = Payload(
    projectId: string,
    date: Option<Instant>,
    description: string,
    category: string,
    trade: string,
    unit: string,
    unitRatePrice: real,
    qty: real,
    totalAmount: real)

  /** `new Date(form.date)` on a date input's value: midnight UTC of that day. */
  function RequestDate(s: string): (r: Option<Instant>)
    ensures r.Some? <==> ParseIsoDate(s).Some?
    ensures r.Some? ==> r.value.msOfDay == 0 && r.value.date == ParseIsoDate(s).value
  {
    match ParseIsoDate(s)
    case Some(d) => Some(Midnight(d))
    case None => None
  }

  /** The request sent for `form`: the text fields as typed, the numbers
      read with `parseFloat(..) || 0`, and the total as their product. */
  function BuildPayload(form: FormData, projectId: string): (p: Payload)
    ensures p.projectId == projectId
    ensures p.description == form.description && p.category == form.category
    ensures p.trade == form.trade && p.unit == form.unit
    ensures p.date == RequestDate(form.date)
    ensures p.unitRatePrice == ParseOrZero(form.unitRatePrice) && p.qty == ParseOrZero(form.qty)
    ensures p.totalAmount == LineTotal(p.unitRatePrice, p.qty)
    ensures p.totalAmount == TotalAmount(form)
  {
    Payload(projectId, RequestDate(form.date), form.description, form.category,
      form.trade, form.unit, ParseOrZero(form.unitRatePrice), ParseOrZero(form.qty), TotalAmount(form))
  }

  datatype Toast = ToastError(message: string) | ToastSuccess(message: string)

  /** What one submit does: the form afterwards, the request sent (if any),
      the toast shown, and whether the dialog is closed. */
  datatype SubmitOutcome = SubmitOutcome(
    form: FormData,
    request: Option<Payload>,
    toast: Toast,
    closeDialog: bool)

  /** `handleSubmit`. An empty category stops it before any request. The
      outcome of the create call is the parameter `createSucceeded`; after a
      success the form is cleared with `today` as its date and the dialog
      closes, after a failure the form is kept and the dialog stays open. */
  function HandleSubmit(form: FormData, projectId: string, today: string, createSucceeded: bool): (r: SubmitOutcome)
    ensures form.category == "" ==>
      r.request == None && r.form == form && !r.closeDialog
      && r.toast == ToastError("Please select a category")
    ensures form.category != "" ==>
      r.request == Some(BuildPayload(form, projectId))
    ensures form.category != "" && createSucceeded ==>
      r.form.date == today && r.closeDialog
      && r.form.description == "" && r.form.category == "" && r.form.trade == ""
      && r.form.unit == "" && r.form.unitRatePrice == "" && r.form.qty == ""
      && r.toast == ToastSuccess("Financial record created successfully!")
    ensures form.category != "" && !createSucceeded ==>
      r.form == form && !r.closeDialog
      && r.toast == ToastError("Failed to create financial record")
  {
    if form.category == "" then
      SubmitOutcome(form, None, ToastError("Please select a category"), false)
    else
      var request := Some(BuildPayload(form, projectId));
      if createSucceeded then
        SubmitOutcome(EmptyForm.(date := today), request,
          ToastSuccess("Financial record created successfully!"), true)
      else
        SubmitOutcome(form, request, ToastError("Failed to create financial record"), false)
  }

  /** The submit button is disabled while a create is pending, while the
      trimmed description is empty, or while no category is chosen: exactly
      when a create is pending, the description is only white space, or the
      category is empty. */
  predicate SubmitDisabled(pending: bool, form: FormData): (b: bool)
    ensures b <==> pending || AllSpace(form.description) || form.category == ""
  {
    TrimEmptyIff(form.description);
    pending || Trim(form.description) == "" || form.category == ""
  }

  /** A submit from an enabled button always sends a request. */
  lemma EnabledSubmitSendsRequest(pending: bool, form: FormData, projectId: string, today: string, ok: bool)
    requires !SubmitDisabled(pending, form)
    ensures HandleSubmit(form, projectId, today, ok).request.Some?
  {
  }

  /** The handler itself checks only the category: a blank description is
      stopped by the disabled button, not by `handleSubmit`. */
  lemma BlankDescriptionOnlyBlockedByButton(pending: bool, form: FormData, projectId: string, today: string, ok: bool)
    requires AllSpace(form.description) && form.category != ""
    ensures SubmitDisabled(pending, form)
    ensures HandleSubmit(form, projectId, today, ok).request.Some?
  {
  }

  /** A freshly opened dialog shows a total of 0. */
  lemma FreshFormTotalIsZero(today: string)
    ensures TotalAmount(OnOpenChange(EmptyForm, true, today)) == 0.0
  {
    ParseFloatEmpty();
  }

  /** Reading the day written for `d` gives midnight UTC of `d`. */
  lemma RequestDateOfFormatted(d: CivilDate)
    requires Displayable(d)
    ensures RequestDate(FormatIsoDate(d)) == Some(Midnight(d))
  {
    FormatThenParse(d);
  }

  /** A price of "12.5" and a quantity of "4" give a total of 50. */
  lemma TotalExample(form: FormData)
    requires form.unitRatePrice == "12.5" && form.qty == "4"
    ensures TotalAmount(form) == 50.0
  {
    ParseFloatFraction();
    ParseFloatInteger();
  }

  /** Editing any field other than price or quantity leaves the total as it was. */
  lemma TotalIgnoresOtherFields(form: FormData, k: FormField, value: string)
    requires k != UnitRatePriceField && k != QtyField
    ensures TotalAmount(HandleInputChange(form, k, value)) == TotalAmount(form)
  {
    var r := HandleInputChange(form, k, value);
    assert Field(r, UnitRatePriceField) == Field(form, UnitRatePriceField);
    assert Field(r, QtyField) == Field(form, QtyField);
  }

  /** Opening the dialog on day `d` and submitting sends midnight UTC of `d`. */
  lemma OpenedFormSendsToday(form: FormData, d: CivilDate, projectId: string, ok: bool)
    requires Displayable(d) && form.category != ""
    ensures HandleSubmit(OnOpenChange(form, true, FormatIsoDate(d)), projectId, FormatIsoDate(d), ok).request
      == Some(BuildPayload(form.(date := FormatIsoDate(d)), projectId))
    ensures BuildPayload(form.(date := FormatIsoDate(d)), projectId).date == Some(Midnight(d))
  {
    FormatThenParse(d);
  }

  /** After a successful create the form is ready for the next record: the
      date is today's, the category is empty, so submitting again is stopped
      by the category guard. */
  lemma SuccessThenResubmit(form: FormData, projectId: string, today: string, ok: bool)
    requires form.category != ""
    ensures HandleSubmit(HandleSubmit(form, projectId, today, true).form, projectId, today, ok).request == None
    ensures SubmitDisabled(false, HandleSubmit(form, projectId, today, true).form)
  {
  }
}

=== FILE: records_table.dfy ===
/** The financial-records table of a project: twelve text filters ANDed
    together, the filtered list, the totals over it, the active-filter
    bookkeeping and the option lists of the category/trade/unit filters. */
module RecordsTable {
  import opened Wrappers
  import opened Text
  import opened Seqs
  import opened Sorting
  import opened Numbers
  import opened Dates
  import opened Ledger

  /** The filter inputs, each holding the raw text of its field; the empty
      string means "not set". */
  datatype Filters = Filters(
    dateFrom: string,
    dateTo: string,
    description: string,
    category: string,
    trade: string,
    unit: string,
    unitRatePriceMin: string,
    unitRatePriceMax: string,
    qtyMin: string,
    qtyMax: string,
    totalAmountMin: string,
    totalAmountMax: string)

  datatype FilterKey =
    | DateFrom | DateTo | Description | Category | Trade | Unit
    | UnitRatePriceMin | UnitRatePriceMax | QtyMin | QtyMax
    | TotalAmountMin | TotalAmountMax

  /** The keys in the order the fields are declared (`Object.values` order). */
  const AllKeys: seq<FilterKey> := [
    DateFrom, DateTo, Description, Category, Trade, Unit,
    UnitRatePriceMin, UnitRatePriceMax, QtyMin, QtyMax,
    TotalAmountMin, TotalAmountMax]

  function Get(f: Filters, k: FilterKey): string {
    match k
    case DateFrom => f.dateFrom
    case DateTo => f.dateTo
    case Description => f.description
    case Category => f.category
    case Trade => f.trade
    case Unit => f.unit
    case UnitRatePriceMin => f.unitRatePriceMin
    case UnitRatePriceMax => f.unitRatePriceMax
    case QtyMin => f.qtyMin
    case QtyMax => f.qtyMax
    case TotalAmountMin => f.totalAmountMin
    case TotalAmountMax => f.totalAmountMax
  }

  /** The initial filter state: every field empty. */
  const NoFilters: Filters := Filters("", "", "", "", "", "", "", "", "", "", "", "")

  /** `updateFilter(key, value)`: sets one field and keeps the other eleven. */
  function UpdateFilter(f: Filters, k: FilterKey, v: string): (r: Filters)
    ensures Get(r, k) == v
    ensures forall k' :: k' != k ==> Get(r, k') == Get(f, k')
  {
    match k
    case DateFrom => f.(dateFrom := v)
    case DateTo => f.(dateTo := v)
    case Description => f.(description := v)
    case Category => f.(category := v)
    case Trade => f.(trade := v)
    case Unit => f.(unit := v)
    case UnitRatePriceMin => f.(unitRatePriceMin := v)
    case UnitRatePriceMax => f.(unitRatePriceMax := v)
    case QtyMin => f.(qtyMin := v)
    case QtyMax => f.(qtyMax := v)
    case TotalAmountMin => f.(totalAmountMin := v)
    case TotalAmountMax => f.(totalAmountMax := v)
  }

  /** `clearFilters`: whatever the current state, every field becomes empty. */
  function ClearFilters(f: Filters): (r: Filters)
    ensures forall k :: Get(r, k) == ""
  {
    NoFilters
  }

  /** The category dropdown's `onValueChange`: its 'all' item clears the
      category filter, any other item sets it. */
  function SelectCategory(f: Filters, value: string): (r: Filters)
    ensures value == "all" ==> Get(r, Category) == ""
    ensures value != "all" ==> Get(r, Category) == value
    ensures forall k :: k != Category ==> Get(r, k) == Get(f, k)
  {
    UpdateFilter(f, Category, if value == "all" then "" else value)
  }

  /** After choosing 'all', a record is shown exactly when it passes the
      other eleven fields' tests: the category plays no part. */
  lemma SelectAllIgnoresCategory(f: Filters, records: seq<FinancialRecord>, x: FinancialRecord)
    ensures x in FilterRecords(SelectCategory(f, "all"), records)
            <==> x in records && forall k :: k != Category ==> Passes(k, Get(f, k), x)
  {
    var g := SelectCategory(f, "all");
    EmptyFieldPassesAll(Category, x);
    assert Matches(g, x) <==> forall k :: Passes(k, Get(g, k), x);
  }

  // ---------------------------------------------------------------------
  // The criteria

  /** A date bound: None when the field is empty or is an Invalid Date. */
  function DateBound(s: string): Option<CivilDate> {
    if s == "" then None else ParseIsoDate(s)
  }

  /** A numeric bound: None when the field is empty or `parseFloat` gives NaN
      (every comparison with NaN is false, so such a bound excludes nothing). */
  function NumberBound(s: string): Option<real> {
    if s == "" then None else ParseFloat(s)
  }

  predicate NotBefore(bound: string, t: Instant) {
    match DateBound(bound)
    case None => true
    case Some(d) => Millis(t) >= Millis(Midnight(d))
  }

  predicate NotAfter(bound: string, t: Instant) {
    match DateBound(bound)
    case None => true
    case Some(d) => Millis(t) <= Millis(Midnight(d))
  }

  predicate AtLeast(bound: string, x: real) {
    match NumberBound(bound)
    case None => true
    case Some(b) => x >= b
  }

  predicate AtMost(bound: string, x: real) {
    match NumberBound(bound)
    case None => true
    case Some(b) => x <= b
  }

  /** Case-insensitive substring match. */
  predicate TextMatches(criterion: string, field: string) {
    criterion == "" || Contains(ToLower(field), ToLower(criterion))
  }

  /** Exact match. */
  predicate ExactMatches(criterion: string, field: string) {
    criterion == "" || field == criterion
  }

  /** The test that the filter field `k`, holding `v`, applies to a record. */
  predicate Passes(k: FilterKey, v: string, r: FinancialRecord) {
    match k
    case DateFrom => NotBefore(v, r.date)
    case DateTo => NotAfter(v, r.date)
    case Description => TextMatches(v, r.description)
    case Category => ExactMatches(v, r.category)
    case Trade => TextMatches(v, r.trade)
    case Unit => TextMatches(v, r.unit)
    case UnitRatePriceMin => AtLeast(v, r.unitRatePrice)
    case UnitRatePriceMax => AtMost(v, r.unitRatePrice)
    case QtyMin => AtLeast(v, r.qty)
    case QtyMax => AtMost(v, r.qty)
    case TotalAmountMin => AtLeast(v, r.totalAmount)
    case TotalAmountMax => AtMost(v, r.totalAmount)
  }

  /** An empty field lets every record through. */
  lemma EmptyFieldPassesAll(k: FilterKey, r: FinancialRecord)
    ensures Passes(k, "", r)
  {
  }

  /** Passing every field's test is meeting the twelve criteria. */
  lemma FieldTests(f: Filters, r: FinancialRecord)
    ensures (forall k :: Passes(k, Get(f, k), r)) <==>
      && NotBefore(f.dateFrom, r.date)
      && NotAfter(f.dateTo, r.date)
      && TextMatches(f.description, r.description)
      && ExactMatches(f.category, r.category)
      && TextMatches(f.trade, r.trade)
      && TextMatches(f.unit, r.unit)
      && AtLeast(f.unitRatePriceMin, r.unitRatePrice)
      && AtMost(f.unitRatePriceMax, r.unitRatePrice)
      && AtLeast(f.qtyMin, r.qty)
      && AtMost(f.qtyMax, r.qty)
      && AtLeast(f.totalAmountMin, r.totalAmount)
      && AtMost(f.totalAmountMax, r.totalAmount)
  {
    if forall k :: Passes(k, Get(f, k), r) {
      FieldTestsNecessary(f, r);
    }
    if
      && NotBefore(f.dateFrom, r.date)
      && NotAfter(f.dateTo, r.date)
      && TextMatches(f.description, r.description)
      && ExactMatches(f.category, r.category)
      && TextMatches(f.trade, r.trade)
      && TextMatches(f.unit, r.unit)
      && AtLeast(f.unitRatePriceMin, r.unitRatePrice)
      && AtMost(f.unitRatePriceMax, r.unitRatePrice)
      && AtLeast(f.qtyMin, r.qty)
      && AtMost(f.qtyMax, r.qty)
      && AtLeast(f.totalAmountMin, r.totalAmount)
      && AtMost(f.totalAmountMax, r.totalAmount)
    {
      FieldTestsSufficient(f, r);
    }
  }

  /** The predicate of the `filteredRecords` memo: a record is kept exactly
      when it passes the test of each of the twelve fields. */
  predicate Matches(f: Filters, r: FinancialRecord): (b: bool)
    ensures b <==> forall k :: Passes(k, Get(f, k), r)
  {
    FieldTests(f, r);
    && NotBefore(f.dateFrom, r.date)
    && NotAfter(f.dateTo, r.date)
    && TextMatches(f.description, r.description)
    && ExactMatches(f.category, r.category)
    && TextMatches(f.trade, r.trade)
    && TextMatches(f.unit, r.unit)
    && AtLeast(f.unitRatePriceMin, r.unitRatePrice)
    && AtMost(f.unitRatePriceMax, r.unitRatePrice)
    && AtLeast(f.qtyMin, r.qty)
    && AtMost(f.qtyMax, r.qty)
    && AtLeast(f.totalAmountMin, r.totalAmount)
    && AtMost(f.totalAmountMax, r.totalAmount)
  }

  /** A record meeting the twelve criteria passes every field's test. */
  lemma FieldTestsSufficient(f: Filters, r: FinancialRecord)
    requires
      && NotBefore(f.dateFrom, r.date)
      && NotAfter(f.dateTo, r.date)
      && TextMatches(f.description, r.description)
      && ExactMatches(f.category, r.category)
      && TextMatches(f.trade, r.trade)
      && TextMatches(f.unit, r.unit)
      && AtLeast(f.unitRatePriceMin, r.unitRatePrice)
      && AtMost(f.unitRatePriceMax, r.unitRatePrice)
      && AtLeast(f.qtyMin, r.qty)
      && AtMost(f.qtyMax, r.qty)
      && AtLeast(f.totalAmountMin, r.totalAmount)
      && AtMost(f.totalAmountMax, r.totalAmount)
    ensures forall k :: Passes(k, Get(f, k), r)
  {
  }

  /** A record passing every field's test meets the twelve criteria. */
  lemma FieldTestsNecessary(f: Filters, r: FinancialRecord)
    requires forall k :: Passes(k, Get(f, k), r)
    ensures
      && NotBefore(f.dateFrom, r.date)
      && NotAfter(f.dateTo, r.date)
      && TextMatches(f.description, r.description)
      && ExactMatches(f.category, r.category)
      && TextMatches(f.trade, r.trade)
      && TextMatches(f.unit, r.unit)
      && AtLeast(f.unitRatePriceMin, r.unitRatePrice)
      && AtMost(f.unitRatePriceMax, r.unitRatePrice)
      && AtLeast(f.qtyMin, r.qty)
      && AtMost(f.qtyMax, r.qty)
      && AtLeast(f.totalAmountMin, r.totalAmount)
      && AtMost(f.totalAmountMax, r.totalAmount)
  {
    assert Passes(DateFrom, Get(f, DateFrom), r) && Passes(DateTo, Get(f, DateTo), r);
    assert Passes(Description, Get(f, Description), r) && Passes(Category, Get(f, Category), r);
    assert Passes(Trade, Get(f, Trade), r) && Passes(Unit, Get(f, Unit), r);
    assert Passes(UnitRatePriceMin, Get(f, UnitRatePriceMin), r);
    assert Passes(UnitRatePriceMax, Get(f, UnitRatePriceMax), r);
    assert Passes(QtyMin, Get(f, QtyMin), r) && Passes(QtyMax, Get(f, QtyMax), r);
    assert Passes(TotalAmountMin, Get(f, TotalAmountMin), r);
    assert Passes(TotalAmountMax, Get(f, TotalAmountMax), r);
  }

  function Matcher(f: Filters): FinancialRecord -> bool {
    r => Matches(f, r)
  }

  /** `filteredRecords`: the records meeting every criterion, in their
      original order. */
  function FilterRecords(f: Filters, records: seq<FinancialRecord>): (r: seq<FinancialRecord>)
    ensures Subseq(r, records) && |r| <= |records|
    ensures forall x :: x in r <==> x in records && Matches(f, x)
  {
    FilterIsSubseq(Matcher(f), records);
    Filter(Matcher(f), records)
  }

  // ---------------------------------------------------------------------
  // Properties of the filter

  /** With every field empty, as initially or after `clearFilters`, the
      table shows every record. */
  lemma NoFiltersKeepsAll(f: Filters, records: seq<FinancialRecord>)
    ensures FilterRecords(NoFilters, records) == records
    ensures FilterRecords(ClearFilters(f), records) == records
  {
    FilterKeepsAll(Matcher(NoFilters), records);
  }

  /** Every record shown lies within every bound that is set and readable,
      bounds included, and contains every text criterion ignoring case. */
  lemma KeptRecordsMeetCriteria(f: Filters, records: seq<FinancialRecord>, x: FinancialRecord)
    requires x in FilterRecords(f, records)
    ensures DateBound(f.dateFrom).Some? ==> Millis(Midnight(DateBound(f.dateFrom).value)) <= Millis(x.date)
    ensures DateBound(f.dateTo).Some? ==> Millis(x.date) <= Millis(Midnight(DateBound(f.dateTo).value))
    ensures NumberBound(f.unitRatePriceMin).Some? ==> NumberBound(f.unitRatePriceMin).value <= x.unitRatePrice
    ensures NumberBound(f.unitRatePriceMax).Some? ==> x.unitRatePrice <= NumberBound(f.unitRatePriceMax).value
    ensures NumberBound(f.qtyMin).Some? ==> NumberBound(f.qtyMin).value <= x.qty
    ensures NumberBound(f.qtyMax).Some? ==> x.qty <= NumberBound(f.qtyMax).value
    ensures NumberBound(f.totalAmountMin).Some? ==> NumberBound(f.totalAmountMin).value <= x.totalAmount
    ensures NumberBound(f.totalAmountMax).Some? ==> x.totalAmount <= NumberBound(f.totalAmountMax).value
    ensures f.description != "" ==> exists i :: OccursAt(ToLower(x.description), ToLower(f.description), i)
    ensures f.trade != "" ==> exists i :: OccursAt(ToLower(x.trade), ToLower(f.trade), i)
    ensures f.unit != "" ==> exists i :: OccursAt(ToLower(x.unit), ToLower(f.unit), i)
    ensures f.category != "" ==> x.category == f.category
  {
    assert Matches(f, x);
    ContainsIff(ToLower(x.description), ToLower(f.description));
    ContainsIff(ToLower(x.trade), ToLower(f.trade));
    ContainsIff(ToLower(x.unit), ToLower(f.unit));
  }

  /** With only a quantity range set, and both bounds readable as numbers
      `a` and `b`, a record is shown exactly when `a <= qty <= b`. */
  lemma QuantityRangeInclusive(records: seq<FinancialRecord>, lo: string, hi: string, a: real, b: real,
                                x: FinancialRecord)
    requires NumberBound(lo) == Some(a) && NumberBound(hi) == Some(b)
    ensures x in FilterRecords(NoFilters.(qtyMin := lo, qtyMax := hi), records)
            <==> x in records && a <= x.qty <= b
  {
    OnlyQuantitySet(lo, hi, x);
  }

  /** With only the quantity bounds set, the quantity criteria decide alone. */
  lemma OnlyQuantitySet(lo: string, hi: string, x: FinancialRecord)
    ensures Matches(NoFilters.(qtyMin := lo, qtyMax := hi), x) <==> AtLeast(lo, x.qty) && AtMost(hi, x.qty)
  {
  }

  /** A number written in decimal is a readable, non-empty bound. */
  lemma ShowNatBound(n: nat)
    ensures NumberBound(ShowNat(n)) == Some(n as real)
  {
    ParseFloatShowNat(n, "");
    assert ShowNat(n) + "" == ShowNat(n);
  }

  /** With only a date range set, a record is shown exactly when its instant
      lies between the midnights that start the two days, both included. */
  lemma DateRangeInclusive(records: seq<FinancialRecord>, from: CivilDate, to: CivilDate, x: FinancialRecord)
    requires Displayable(from) && Displayable(to)
    ensures var f := NoFilters.(dateFrom := FormatIsoDate(from), dateTo := FormatIsoDate(to));
            x in FilterRecords(f, records)
            <==> x in records && Millis(Midnight(from)) <= Millis(x.date) <= Millis(Midnight(to))
  {
    FormatThenParse(from);
    FormatThenParse(to);
  }

  /** The upper date bound is the first instant of its day: a record later
      on that same day is not shown, though it passes the lower bound. */
  lemma DateToStopsAtMidnight(d: CivilDate, x: FinancialRecord)
    requires Displayable(d) && x.date.date == d && x.date.msOfDay > 0
    ensures !Matches(UpdateFilter(NoFilters, DateTo, FormatIsoDate(d)), x)
    ensures Matches(UpdateFilter(NoFilters, DateFrom, FormatIsoDate(d)), x)
  {
    FormatThenParse(d);
  }

  /** The fields read as a bound of their own kind. */
  predicate IsDateKey(k: FilterKey) {
    k == DateFrom || k == DateTo
  }

  predicate IsNumberKey(k: FilterKey) {
    k in {UnitRatePriceMin, UnitRatePriceMax, QtyMin, QtyMax, TotalAmountMin, TotalAmountMax}
  }

  /** A bound that does not read as a date or number behaves exactly as if
      the field were empty. */
  lemma UnreadableBoundIsUnset(f: Filters, k: FilterKey, records: seq<FinancialRecord>)
    requires IsDateKey(k) ==> ParseIsoDate(Get(f, k)) == None
    requires IsNumberKey(k) ==> ParseFloat(Get(f, k)) == None
    requires IsDateKey(k) || IsNumberKey(k)
    ensures FilterRecords(f, records) == FilterRecords(UpdateFilter(f, k, ""), records)
  {
    var g := UpdateFilter(f, k, "");
    forall i | 0 <= i < |records|
      ensures Matcher(f)(records[i]) == Matcher(g)(records[i])
    {
      assert Matches(f, records[i]) == Matches(g, records[i]);
    }
    FilterExtensional(Matcher(f), Matcher(g), records);
  }

  /** Setting a field that was empty never shows more records: the new
      result is a subsequence of the old. */
  lemma AddingCriterionNarrows(f: Filters, k: FilterKey, v: string, records: seq<FinancialRecord>)
    requires Get(f, k) == ""
    ensures Subseq(FilterRecords(UpdateFilter(f, k, v), records), FilterRecords(f, records))
    ensures |FilterRecords(UpdateFilter(f, k, v), records)| <= |FilterRecords(f, records)|
  {
    var g := UpdateFilter(f, k, v);
    forall i | 0 <= i < |records|
      ensures Matcher(g)(records[i]) ==> Matcher(f)(records[i])
    {
      assert Matches(g, records[i]) ==> Matches(f, records[i]);
    }
    FilterMonotone(Matcher(f), Matcher(g), records);
  }

  predicate IsTextKey(k: FilterKey) {
    k == Description || k == Trade || k == Unit
  }

  /** The description, trade and unit criteria ignore letter case: changing
      the case of the typed text does not change the result. */
  lemma TextCriteriaIgnoreCase(f: Filters, k: FilterKey, v: string, w: string, records: seq<FinancialRecord>)
    requires IsTextKey(k) && CaseVariant(v, w)
    ensures FilterRecords(UpdateFilter(f, k, v), records) == FilterRecords(UpdateFilter(f, k, w), records)
  {
    CaseVariantSameLower(v, w);
    var g, h := UpdateFilter(f, k, v), UpdateFilter(f, k, w);
    forall i | 0 <= i < |records|
      ensures Matcher(g)(records[i]) == Matcher(h)(records[i])
    {
      assert Matches(g, records[i]) == Matches(h, records[i]);
    }
    FilterExtensional(Matcher(g), Matcher(h), records);
  }

  /** The category criterion, unlike the text criteria, is exact: a record
      of category "Contractor" is shown for "Contractor" but not for
      "contractor", whereas a description criterion finds it either way. */
  lemma CategoryIsCaseSensitive(x: FinancialRecord)
    requires x.category == "Contractor" && x.description == "Contractor"
    requires Matches(NoFilters, x)
    ensures Matches(UpdateFilter(NoFilters, Category, "Contractor"), x)
    ensures !Matches(UpdateFilter(NoFilters, Category, "contractor"), x)
    ensures Matches(UpdateFilter(NoFilters, Description, "contractor"), x)
  {
    assert UpdateFilter(NoFilters, Category, "Contractor") == NoFilters.(category := "Contractor");
    assert UpdateFilter(NoFilters, Category, "contractor") == NoFilters.(category := "contractor");
    assert UpdateFilter(NoFilters, Description, "contractor") == NoFilters.(description := "contractor");
    assert ToLower("Contractor") == "contractor";
    assert ToLower("contractor") == "contractor";
    assert IsPrefix("contractor", "contractor");
  }

  // ---------------------------------------------------------------------
  // Totals over the filtered records

  function AmountOf(r: FinancialRecord): real {
    r.totalAmount
  }

  /** A positive amount counts as credit. */
  function CreditPart(r: FinancialRecord): real {
    if r.totalAmount > 0.0 then r.totalAmount else 0.0
  }

  /** A negative amount counts, by magnitude, as debit. */
  function DebitPart(r: FinancialRecord): real {
    if r.totalAmount < 0.0 then -r.totalAmount else 0.0
  }

  datatype Totals = Totals(totalAmount: real, totalCredit: real, totalDebit: real, totalBalance: real)

  /** The three `reduce` calls and the balance of the summary row. Credit and
      debit are never negative, and the balance they give is the plain sum
      of the amounts. */
  method ComputeTotals(records: seq<FinancialRecord>) returns (t: Totals)
    ensures t.totalAmount == SumOf(records, AmountOf)
    ensures t.totalCredit == SumOf(records, CreditPart)
    ensures t.totalDebit == SumOf(records, DebitPart)
    ensures t.totalCredit >= 0.0 && t.totalDebit >= 0.0
    ensures t.totalBalance == t.totalCredit - t.totalDebit
    ensures t.totalBalance == t.totalAmount
  {
    var amount, credit, debit := 0.0, 0.0, 0.0;
    var i := 0;
    while i < |records|
      invariant 0 <= i <= |records|
      invariant amount == SumOf(records[..i], AmountOf)
      invariant credit == SumOf(records[..i], CreditPart)
      invariant debit == SumOf(records[..i], DebitPart)
      invariant credit >= 0.0 && debit >= 0.0
      invariant credit - debit == amount
    {
      assert records[..i + 1][..i] == records[..i];
      amount := amount + records[i].totalAmount;
      credit := credit + (if records[i].totalAmount > 0.0 then records[i].totalAmount else 0.0);
      debit := debit + (if records[i].totalAmount < 0.0 then -records[i].totalAmount else 0.0);
      i := i + 1;
    }
    assert records[..i] == records;
    t := Totals(amount, credit, debit, credit - debit);
  }

  // ---------------------------------------------------------------------
  // Active filters

  function IsSet(f: Filters): FilterKey -> bool {
    k => Get(f, k) != ""
  }

  lemma AllKeysComplete(k: FilterKey)
    ensures k in AllKeys
  {
  }

  /** `hasActiveFilters`: some field is not empty. */
  predicate HasActiveFilters(f: Filters) {
    exists i :: 0 <= i < |AllKeys| && Get(f, AllKeys[i]) != ""
  }

  lemma AllKeysDistinct()
    ensures NoDuplicates(AllKeys)
  {
  }

  /** The "N filters active" badge: the number of non-empty fields. */
  function ActiveFilterCount(f: Filters): (n: nat)
    ensures n == |set k | k in AllKeys && Get(f, k) != ""|
    ensures n <= 12
  {
    AllKeysDistinct();
    CountDistinct(IsSet(f), AllKeys);
    SetOfSetKeys(f);
    |Filter(IsSet(f), AllKeys)|
  }

  lemma SetOfSetKeys(f: Filters)
    ensures ValuesWhere(IsSet(f), AllKeys) == set k | k in AllKeys && Get(f, k) != ""
  {
  }

  /** `Object.values(filters).some(v => v !== '')`: some field is set. */
  lemma ActiveIffSomeField(f: Filters)
    ensures HasActiveFilters(f) <==> exists k :: Get(f, k) != ""
  {
    if exists k :: Get(f, k) != "" {
      var k :| Get(f, k) != "";
      AllKeysComplete(k);
      var i :| 0 <= i < |AllKeys| && AllKeys[i] == k;
    }
  }

  /** The badge and the "Clear All Filters" button appear together: some
      field is set exactly when the count is positive. */
  lemma ActiveFiltersAgree(f: Filters)
    ensures HasActiveFilters(f) <==> ActiveFilterCount(f) > 0
    ensures HasActiveFilters(f) <==> exists k :: Get(f, k) != ""
  {
    ActiveIffSomeField(f);
    var s := set k | k in AllKeys && Get(f, k) != "";
    assert ActiveFilterCount(f) == |s|;
    if exists k :: Get(f, k) != "" {
      var k :| Get(f, k) != "";
      AllKeysComplete(k);
      assert k in s;
    }
    if |s| > 0 {
      var k :| k in s;
    }
  }

  /** After `clearFilters` no filter is active. */
  lemma ClearedFiltersInactive(f: Filters)
    ensures ActiveFilterCount(ClearFilters(f)) == 0
    ensures !HasActiveFilters(ClearFilters(f))
  {
    ActiveFiltersAgree(ClearFilters(f));
  }

  /** Filling in an empty field adds exactly one to the count. */
  lemma SettingEmptyFieldCountsOnce(f: Filters, k: FilterKey, v: string)
    requires Get(f, k) == "" && v != ""
    ensures ActiveFilterCount(UpdateFilter(f, k, v)) == ActiveFilterCount(f) + 1
  {
    var g := UpdateFilter(f, k, v);
    AllKeysComplete(k);
    var before := set j | j in AllKeys && Get(f, j) != "";
    var after := set j | j in AllKeys && Get(g, j) != "";
    assert after == before + {k};
  }

  // ---------------------------------------------------------------------
  // Option lists of the dropdown filters

  function Values(records: seq<FinancialRecord>, field: FinancialRecord -> string): (r: seq<string>)
    ensures |r| == |records|
    ensures forall i :: 0 <= i < |records| ==> r[i] == field(records[i])
  {
    seq(|records|, i requires 0 <= i < |records| => field(records[i]))
  }

  function CategoryOf(r: FinancialRecord): string { r.category }
  function TradeOf(r: FinancialRecord): string { r.trade }
  function UnitOf(r: FinancialRecord): string { r.unit }

  /** `uniqueCategories`: sorted, without repeats, and holding exactly the
      categories that occur in the records. */
  function UniqueCategories(records: seq<FinancialRecord>): (r: seq<string>)
    ensures SortedStrings(r) && NoDuplicates(r)
    ensures forall c :: c in r <==> exists i :: 0 <= i < |records| && records[i].category == c
  {
    var vs := Values(records, CategoryOf);
    assert forall c :: c in vs <==> exists i :: 0 <= i < |records| && records[i].category == c;
    UniqueSorted(vs)
  }

  /** `uniqueTrades`. */
  function UniqueTrades(records: seq<FinancialRecord>): (r: seq<string>)
    ensures SortedStrings(r) && NoDuplicates(r)
    ensures forall c :: c in r <==> exists i :: 0 <= i < |records| && records[i].trade == c
  {
    var vs := Values(records, TradeOf);
    assert forall c :: c in vs <==> exists i :: 0 <= i < |records| && records[i].trade == c;
    UniqueSorted(vs)
  }

  /** `uniqueUnits`. */
  function UniqueUnits(records: seq<FinancialRecord>): (r: seq<string>)
    ensures SortedStrings(r) && NoDuplicates(r)
    ensures forall c :: c in r <==> exists i :: 0 <= i < |records| && records[i].unit == c
  {
    var vs := Values(records, UnitOf);
    assert forall c :: c in vs <==> exists i :: 0 <= i < |records| && records[i].unit == c;
    UniqueSorted(vs)
  }
}

=== FILE: reports.dfy ===
/** The project report: transactions filtered to one calendar day and one
    category, newest first, with a credit/debit summary and the list of
    categories offered by the category filter. */
module Reports {
  import opened Wrappers
  import opened Text
  import opened Seqs
  import opened Sorting
  import opened Dates
  import opened Ledger

  /** The day filter: empty, or the transaction's day written 'yyyy-MM-dd'
      equals the filter text. */
  predicate OnDay(dateFilter: string, t: Transaction) {
    dateFilter == "" || FormatIsoDate(t.date.date) == dateFilter
  }

  /** The category filter: the sentinel 'all', or the categories agree
      ignoring case. */
  predicate InCategory(categoryFilter: string, t: Transaction) {
    categoryFilter == "all" || ToLower(t.category) == ToLower(categoryFilter)
  }

  function DayMatcher(dateFilter: string): Transaction -> bool {
    t => OnDay(dateFilter, t)
  }

  function CategoryMatcher(categoryFilter: string): Transaction -> bool {
    t => InCategory(categoryFilter, t)
  }

  predicate SortedByDateDesc(s: seq<Transaction>) {
    forall i, j :: 0 <= i < j < |s| ==> Millis(s[i].date) >= Millis(s[j].date)
  }

  /** Places `t` before the first entry that is not later than it, so that
      entries with equal times keep their relative order. */
  function InsertByDate(t: Transaction, s: seq<Transaction>): (r: seq<Transaction>)
    ensures multiset(r) == multiset(s) + multiset{t}
  {
    if |s| == 0 then [t]
    else if Millis(t.date) >= Millis(s[0].date) then [t] + s
    else
      assert s == [s[0]] + s[1..];
      [s[0]] + InsertByDate(t, s[1..])
  }

  lemma {:induction false} InsertByDateSorted(t: Transaction, s: seq<Transaction>)
    requires SortedByDateDesc(s)
    ensures SortedByDateDesc(InsertByDate(t, s))
  {
    if |s| > 0 && Millis(t.date) < Millis(s[0].date) {
      InsertByDateSorted(t, s[1..]);
      var r := InsertByDate(t, s);
      forall j | 0 < j < |r|
        ensures Millis(s[0].date) >= Millis(r[j].date)
      {
        var y := r[j];
        assert y in multiset(InsertByDate(t, s[1..]));
        assert y == t || y in s[1..];
      }
    }
  }

  /** `sort((a, b) => b.getTime() - a.getTime())`: a stable sort, newest first. */
  function SortByDateDesc(s: seq<Transaction>): (r: seq<Transaction>)
    ensures multiset(r) == multiset(s)
    ensures SortedByDateDesc(r)
  {
    if |s| == 0 then []
    else
      assert s == [s[0]] + s[1..];
      InsertByDateSorted(s[0], SortByDateDesc(s[1..]));
      InsertByDate(s[0], SortByDateDesc(s[1..]))
  }

  /** The two filters of `filteredTransactions`, each applied only when set. */
  function Selected(ts: seq<Transaction>, dateFilter: string, categoryFilter: string): (r: seq<Transaction>)
    ensures forall t :: t in r <==> t in ts && OnDay(dateFilter, t) && InCategory(categoryFilter, t)
  {
    var byDay := if dateFilter != "" then Filter(DayMatcher(dateFilter), ts) else ts;
    if categoryFilter != "all" then Filter(CategoryMatcher(categoryFilter), byDay) else byDay
  }

  lemma SelectedMultiset(ts: seq<Transaction>, dateFilter: string, categoryFilter: string, t: Transaction)
    ensures multiset(Selected(ts, dateFilter, categoryFilter))[t]
            == if OnDay(dateFilter, t) && InCategory(categoryFilter, t) then multiset(ts)[t] else 0
  {
    var byDay := if dateFilter != "" then Filter(DayMatcher(dateFilter), ts) else ts;
    FilterMultiset(DayMatcher(dateFilter), ts, t);
    FilterMultiset(CategoryMatcher(categoryFilter), byDay, t);
  }

  /** `filteredTransactions`: nothing while the transactions are loading;
      otherwise every transaction passing both filters, each as often as in
      the input and no other, newest first. */
  function FilteredTransactions(transactions: Option<seq<Transaction>>, dateFilter: string, categoryFilter: string)
    : (r: seq<Transaction>)
    ensures transactions.None? ==> r == []
    ensures SortedByDateDesc(r)
    ensures transactions.Some? ==>
              (forall t :: multiset(r)[t] == if OnDay(dateFilter, t) && InCategory(categoryFilter, t)
                                             then multiset(transactions.value)[t] else 0)
  {
    match transactions
    case None => []
    case Some(ts) =>
      assert forall t :: multiset(Selected(ts, dateFilter, categoryFilter))[t]
              == if OnDay(dateFilter, t) && InCategory(categoryFilter, t) then multiset(ts)[t] else 0 by {
        forall t {
          SelectedMultiset(ts, dateFilter, categoryFilter, t);
        }
      }
      SortByDateDesc(Selected(ts, dateFilter, categoryFilter))
  }

  /** With no day and category 'all' the report lists every transaction,
      reordered. */
  lemma NoFilterIsPermutation(ts: seq<Transaction>)
    ensures multiset(FilteredTransactions(Some(ts), "", "all")) == multiset(ts)
  {
    var r := FilteredTransactions(Some(ts), "", "all");
    assert forall t :: multiset(r)[t] == multiset(ts)[t];
  }

  /** A readable day filter keeps exactly the transactions of that calendar
      day that pass the category filter. */
  lemma DayFilterKeepsThatDay(ts: seq<Transaction>, dateFilter: string, categoryFilter: string, d: CivilDate, t: Transaction)
    requires ParseIsoDate(dateFilter) == Some(d) && d.year >= 1
    requires Displayable(t.date.date)
    ensures t in FilteredTransactions(Some(ts), dateFilter, categoryFilter)
            <==> t in ts && t.date.date == d && InCategory(categoryFilter, t)
  {
    var r := FilteredTransactions(Some(ts), dateFilter, categoryFilter);
    assert t in r <==> multiset(r)[t] > 0;
    assert t in ts <==> multiset(ts)[t] > 0;
    ParseThenFormat(dateFilter, d);
    if FormatIsoDate(t.date.date) == dateFilter {
      FormatInjective(t.date.date, d);
    }
  }

  /** A day filter that is not a 'yyyy-MM-dd' day matches no transaction. */
  lemma UnreadableDayMatchesNothing(ts: seq<Transaction>, dateFilter: string, categoryFilter: string)
    requires dateFilter != "" && ParseIsoDate(dateFilter) == None
    requires forall i :: 0 <= i < |ts| ==> Displayable(ts[i].date.date)
    ensures FilteredTransactions(Some(ts), dateFilter, categoryFilter) == []
  {
    var r := FilteredTransactions(Some(ts), dateFilter, categoryFilter);
    if |r| > 0 {
      var t := r[0];
      assert multiset(r)[t] > 0;
      assert t in ts;
      FormatThenParse(t.date.date);
      assert false;
    }
  }

  /** The category filter ignores letter case: changing the case of the
      chosen category (other than the sentinel 'all') changes nothing. */
  lemma CategoryFilterIgnoresCase(ts: seq<Transaction>, dateFilter: string, c: string, c': string)
    requires CaseVariant(c, c') && c != "all" && c' != "all"
    ensures FilteredTransactions(Some(ts), dateFilter, c) == FilteredTransactions(Some(ts), dateFilter, c')
  {
    CaseVariantSameLower(c, c');
    var byDay := if dateFilter != "" then Filter(DayMatcher(dateFilter), ts) else ts;
    FilterExtensional(CategoryMatcher(c), CategoryMatcher(c'), byDay);
  }

  // ---------------------------------------------------------------------
  // Summary

  datatype Summary = Summary(totalCredit: real, totalDebit: real, totalBalance: real, entryCount: nat)

  function CreditOf(t: Transaction): real { t.credit }
  function DebitOf(t: Transaction): real { t.debit }

  /** The `summary` memo: all zero for an empty list, otherwise the two
      sums, their difference and the count. The empty case agrees with the
      sums, so the totals are the sums for every list. */
  function Summarize(ts: seq<Transaction>): (r: Summary)
    ensures |ts| == 0 ==> r == Summary(0.0, 0.0, 0.0, 0)
    ensures r.totalCredit == SumOf(ts, CreditOf)
    ensures r.totalDebit == SumOf(ts, DebitOf)
    ensures r.totalBalance == r.totalCredit - r.totalDebit
    ensures r.entryCount == |ts|
  {
    if |ts| == 0 then Summary(0.0, 0.0, 0.0, 0)
    else
      var credit := SumOf(ts, CreditOf);
      var debit := SumOf(ts, DebitOf);
      Summary(credit, debit, credit - debit, |ts|)
  }

  /** Summaries add up: the summary of two lists joined is the sum of their
      summaries, field by field. */
  lemma SummaryAdditive(a: seq<Transaction>, b: seq<Transaction>)
    ensures Summarize(a + b).totalCredit == Summarize(a).totalCredit + Summarize(b).totalCredit
    ensures Summarize(a + b).totalDebit == Summarize(a).totalDebit + Summarize(b).totalDebit
    ensures Summarize(a + b).totalBalance == Summarize(a).totalBalance + Summarize(b).totalBalance
    ensures Summarize(a + b).entryCount == Summarize(a).entryCount + Summarize(b).entryCount
  {
    SumOfAppend(a, b, CreditOf);
    SumOfAppend(a, b, DebitOf);
  }

  /** With non-negative amounts, both totals are non-negative. */
  lemma SummaryNonNegative(ts: seq<Transaction>)
    requires forall i :: 0 <= i < |ts| ==> ts[i].credit >= 0.0 && ts[i].debit >= 0.0
    ensures Summarize(ts).totalCredit >= 0.0 && Summarize(ts).totalDebit >= 0.0
  {
    SumOfNonNegative(ts, CreditOf);
    SumOfNonNegative(ts, DebitOf);
  }

  /** Credit 100 and debit 30, then debit 20: totals 100, 50, balance 50. */
  lemma SummaryExample(t1: Transaction, t2: Transaction)
    requires t1.credit == 100.0 && t1.debit == 30.0
    requires t2.credit == 0.0 && t2.debit == 20.0
    ensures Summarize([t1, t2]) == Summary(100.0, 50.0, 50.0, 2)
  {
    var ts := [t1, t2];
    assert ts[..1] == [t1] && [t1][..0] == [];
    assert SumOf([t1], CreditOf) == 100.0 && SumOf([t1], DebitOf) == 30.0;
    assert SumOf(ts, CreditOf) == 100.0 && SumOf(ts, DebitOf) == 50.0;
  }

  // ---------------------------------------------------------------------
  // Category list

  /** The `categories` memo: nothing while loading; otherwise the distinct
      categories in sorted order. */
  function ReportCategories(transactions: Option<seq<Transaction>>): (r: seq<string>)
    ensures transactions.None? ==> r == []
    ensures SortedStrings(r) && NoDuplicates(r)
    ensures transactions.Some? ==> forall c :: c in r <==>
              exists i :: 0 <= i < |transactions.value| && transactions.value[i].category == c
  {
    match transactions
    case None => []
    case Some(ts) =>
      var vs := CategoryValues(ts);
      assert forall c :: c in vs <==> exists i :: 0 <= i < |ts| && ts[i].category == c;
      UniqueSorted(vs)
  }
}

=== FILE: seqs.dfy ===
/** Sequence operations behind `Array.prototype.filter`, `reduce`, and
    `new Set(...)`, with the facts the ledger views rely on. */
module Seqs {

  /** `a` can be obtained from `b` by deleting elements: an order-preserving
      subsequence. */
  predicate Subseq<T(==)>(a: seq<T>, b: seq<T>)
    decreases |b|
  {
    if |a| == 0 then true
    else if |b| == 0 then false
    else (a[0] == b[0] && Subseq(a[1..], b[1..])) || Subseq(a, b[1..])
  }

  lemma {:induction false} SubseqLength<T>(a: seq<T>, b: seq<T>)
    requires Subseq(a, b)
    ensures |a| <= |b|
    decreases |b|
  {
    if |a| > 0 {
      if a[0] == b[0] && Subseq(a[1..], b[1..]) {
        SubseqLength(a[1..], b[1..]);
      } else {
        SubseqLength(a, b[1..]);
      }
    }
  }

  /** `Array.prototype.filter`: the elements satisfying `p`, in their order. */
  function Filter<T(==,!new)>(p: T -> bool, s: seq<T>): (r: seq<T>)
    ensures |r| <= |s|
    ensures forall i :: 0 <= i < |r| ==> p(r[i])
    ensures forall x :: x in r <==> x in s && p(x)
  {
    if |s| == 0 then []
    else if p(s[0]) then [s[0]] + Filter(p, s[1..])
    else Filter(p, s[1..])
  }

  /** A filter result is an order-preserving subsequence of its input. */
  lemma {:induction false} FilterIsSubseq<T(!new)>(p: T -> bool, s: seq<T>)
    ensures Subseq(Filter(p, s), s)
  {
    if |s| > 0 {
      FilterIsSubseq(p, s[1..]);
      if !p(s[0]) && |Filter(p, s)| > 0 {
        assert Subseq(Filter(p, s), s[1..]);
      }
    }
  }

  /** Filtering with a predicate that holds everywhere returns the input. */
  lemma {:induction false} FilterKeepsAll<T(!new)>(p: T -> bool, s: seq<T>)
    requires forall i :: 0 <= i < |s| ==> p(s[i])
    ensures Filter(p, s) == s
  {
    if |s| > 0 {
      FilterKeepsAll(p, s[1..]);
    }
  }

  /** Filters with pointwise-equal predicates agree. */
  lemma {:induction false} FilterExtensional<T(!new)>(p: T -> bool, q: T -> bool, s: seq<T>)
    requires forall i :: 0 <= i < |s| ==> p(s[i]) == q(s[i])
    ensures Filter(p, s) == Filter(q, s)
  {
    if |s| > 0 {
      FilterExtensional(p, q, s[1..]);
    }
  }

  /** A stronger predicate keeps a subsequence of what a weaker one keeps. */
  lemma {:induction false} FilterMonotone<T(!new)>(p: T -> bool, q: T -> bool, s: seq<T>)
    requires forall i :: 0 <= i < |s| ==> q(s[i]) ==> p(s[i])
    ensures Subseq(Filter(q, s), Filter(p, s))
    ensures |Filter(q, s)| <= |Filter(p, s)|
  {
    if |s| > 0 {
      FilterMonotone(p, q, s[1..]);
      var a, b := Filter(q, s), Filter(p, s);
      if q(s[0]) {
        assert a[1..] == Filter(q, s[1..]) && b[1..] == Filter(p, s[1..]);
      } else if p(s[0]) && |a| > 0 {
        assert b[1..] == Filter(p, s[1..]);
        assert Subseq(a, b[1..]);
      }
    }
    SubseqLength(Filter(q, s), Filter(p, s));
  }

  /** Filtering keeps every copy of a satisfying element and no copy of any other. */
  lemma {:induction false} FilterMultiset<T(!new)>(p: T -> bool, s: seq<T>, x: T)
    ensures multiset(Filter(p, s))[x] == if p(x) then multiset(s)[x] else 0
  {
    if |s| > 0 {
      FilterMultiset(p, s[1..], x);
      assert s == [s[0]] + s[1..];
    }
  }

  /** `reduce((sum, x) => sum + f(x), 0)`: a left fold over the sequence. */
  function SumOf<T>(s: seq<T>, f: T -> real): real {
    if |s| == 0 then 0.0 else SumOf(s[..|s| - 1], f) + f(s[|s| - 1])
  }

  lemma {:induction false} SumOfAppend<T>(a: seq<T>, b: seq<T>, f: T -> real)
    ensures SumOf(a + b, f) == SumOf(a, f) + SumOf(b, f)
    decreases |b|
  {
    if |b| > 0 {
      assert (a + b)[..|a + b| - 1] == a + b[..|b| - 1];
      SumOfAppend(a, b[..|b| - 1], f);
    } else {
      assert a + b == a;
    }
  }

  lemma {:induction false} SumOfNonNegative<T>(s: seq<T>, f: T -> real)
    requires forall i :: 0 <= i < |s| ==> f(s[i]) >= 0.0
    ensures SumOf(s, f) >= 0.0
  {
    if |s| > 0 {
      SumOfNonNegative(s[..|s| - 1], f);
    }
  }

  predicate NoDuplicates<T(==)>(s: seq<T>) {
    forall i, j :: 0 <= i < j < |s| ==> s[i] != s[j]
  }

  /** `[...new Set(s)]`: each value once, in order of first occurrence. */
  function Distinct<T(==,!new)>(s: seq<T>): (r: seq<T>)
    ensures |r| <= |s|
    ensures NoDuplicates(r)
    ensures forall x :: x in r <==> x in s
  {
    if |s| == 0 then []
    else
      var d := Distinct(s[..|s| - 1]);
      assert s == s[..|s| - 1] + [s[|s| - 1]];
      if s[|s| - 1] in d then d else d + [s[|s| - 1]]
  }

  /** The set of values of `s` that satisfy `p`, built element by element. */
  function ValuesWhere<T(!new)>(p: T -> bool, s: seq<T>): (r: set<T>)
    ensures forall x :: x in r <==> x in s && p(x)
  {
    if |s| == 0 then {}
    else
      assert s == [s[0]] + s[1..];
      (if p(s[0]) then {s[0]} else {}) + ValuesWhere(p, s[1..])
  }

  lemma NoDuplicatesTail<T>(s: seq<T>)
    requires |s| > 0 && NoDuplicates(s)
    ensures NoDuplicates(s[1..]) && s[0] !in s[1..]
  {
    forall i, j | 0 <= i < j < |s| - 1
      ensures s[1..][i] != s[1..][j]
    {
      assert s[1..][i] == s[i + 1] && s[1..][j] == s[j + 1];
    }
  }

  /** Counting the members of a duplicate-free sequence that satisfy `p`
      counts the set of values satisfying `p`. */
  lemma {:induction false} CountDistinct<T(!new)>(p: T -> bool, s: seq<T>)
    requires NoDuplicates(s)
    ensures |Filter(p, s)| == |ValuesWhere(p, s)|
  {
    if |s| > 0 {
      NoDuplicatesTail(s);
      CountDistinct(p, s[1..]);
      assert s[0] !in ValuesWhere(p, s[1..]);
    }
  }
}

=== FILE: sorting.dfy ===
/** `[...new Set(values)].sort()`: the distinct values of a list in the
    default string order. */
module Sorting {
  import opened Text
  import opened Seqs

  predicate SortedStrings(s: seq<string>) {
    forall i, j :: 0 <= i < j < |s| ==> StrLe(s[i], s[j])
  }

  /** Inserts `x` before the first element it does not exceed. */
  function Insert(x: string, s: seq<string>): (r: seq<string>)
    ensures |r| == |s| + 1
    ensures multiset(r) == multiset(s) + multiset{x}
    ensures forall y :: y in r <==> y == x || y in s
  {
    if |s| == 0 then [x]
    else if StrLe(x, s[0]) then [x] + s
    else
      assert s == [s[0]] + s[1..];
      [s[0]] + Insert(x, s[1..])
  }

  lemma {:induction false} InsertSorted(x: string, s: seq<string>)
    requires SortedStrings(s)
    ensures SortedStrings(Insert(x, s))
  {
    if |s| > 0 {
      if StrLe(x, s[0]) {
        forall j | 0 < j < |s| + 1
          ensures StrLe(x, ([x] + s)[j])
        {
          if j > 1 {
            StrLeTransitive(x, s[0], s[j - 1]);
          }
        }
      } else {
        InsertSorted(x, s[1..]);
        StrLeTotal(x, s[0]);
        var r := Insert(x, s);
        forall j | 0 < j < |r|
          ensures StrLe(s[0], r[j])
        {
          assert r[j] in Insert(x, s[1..]);
        }
      }
    }
  }

  lemma {:induction false} InsertNoDuplicates(x: string, s: seq<string>)
    requires NoDuplicates(s) && x !in s
    ensures NoDuplicates(Insert(x, s))
  {
    if |s| > 0 && !StrLe(x, s[0]) {
      NoDuplicatesTail(s);
      InsertNoDuplicates(x, s[1..]);
    }
  }

  /** Insertion sort in the default string order. */
  function Sort(s: seq<string>): (r: seq<string>)
    ensures |r| == |s|
    ensures multiset(r) == multiset(s)
    ensures forall y :: y in r <==> y in s
    ensures SortedStrings(r)
  {
    if |s| == 0 then []
    else
      assert s == [s[0]] + s[1..];
      InsertSorted(s[0], Sort(s[1..]));
      Insert(s[0], Sort(s[1..]))
  }

  lemma {:induction false} SortNoDuplicates(s: seq<string>)
    requires NoDuplicates(s)
    ensures NoDuplicates(Sort(s))
  {
    if |s| > 0 {
      NoDuplicatesTail(s);
      SortNoDuplicates(s[1..]);
      InsertNoDuplicates(s[0], Sort(s[1..]));
    }
  }

  /** The distinct values of `s`, sorted: strictly increasing, and holding
      exactly the values that occur in `s`. */
  function UniqueSorted(s: seq<string>): (r: seq<string>)
    ensures SortedStrings(r)
    ensures NoDuplicates(r)
    ensures forall i, j :: 0 <= i < j < |r| ==> StrLe(r[i], r[j]) && r[i] != r[j]
    ensures forall y :: y in r <==> y in s
    ensures |r| <= |s|
  {
    SortNoDuplicates(Distinct(s));
    Sort(Distinct(s))
  }
}

=== FILE: text.dfy ===
/** String operations of the JavaScript runtime that the ledger code relies on:
    white space and `trim`, `toLowerCase`, `includes`, and the code-unit
    ordering used by `Array.prototype.sort` on strings. */
module Text {

  /** The characters ECMAScript counts as white space or line terminators;
      `trim` removes them and `parseFloat` skips them. */
  predicate IsJsSpace(c: char) {
    || c == '\t' || c == '\n' || c == '\U{000B}' || c == '\U{000C}' || c == '\r'
    || c == ' ' || c == '\U{00A0}' || c == '\U{1680}'
    || ('\U{2000}' <= c <= '\U{200A}')
    || c == '\U{2028}' || c == '\U{2029}' || c == '\U{202F}' || c == '\U{205F}'
    || c == '\U{3000}' || c == '\U{FEFF}'
  }

  predicate AllSpace(s: string) {
    forall i :: 0 <= i < |s| ==> IsJsSpace(s[i])
  }

  /** `trimStart`: drops the leading white space and nothing else. */
  function TrimStart(s: string): (r: string)
    ensures |r| <= |s| && r == s[|s| - |r|..]
    ensures AllSpace(s[..|s| - |r|])
    ensures |r| > 0 ==> !IsJsSpace(r[0])
  {
    if |s| > 0 && IsJsSpace(s[0]) then TrimStart(s[1..]) else s
  }

  /** `trimEnd`: drops the trailing white space and nothing else. */
  function TrimEnd(s: string): (r: string)
    ensures |r| <= |s| && r == s[..|r|]
    ensures AllSpace(s[|r|..])
    ensures |r| > 0 ==> !IsJsSpace(r[|r| - 1])
  {
    if |s| > 0 && IsJsSpace(s[|s| - 1]) then TrimEnd(s[..|s| - 1]) else s
  }

  /** `String.prototype.trim`. */
  function Trim(s: string): string {
    TrimEnd(TrimStart(s))
  }

  /** A string trims to the empty string exactly when it is all white space. */
  lemma TrimEmptyIff(s: string)
    ensures Trim(s) == [] <==> AllSpace(s)
  {
    var t := TrimStart(s);
    if Trim(s) == [] {
      assert t[0..] == t;
      assert s[..|s|] == s;
    }
  }

  /** `toLowerCase` on the ASCII letters; every other character is unchanged. */
  function LowerChar(c: char): char {
    if 'A' <= c <= 'Z' then (c as int + 32) as char else c
  }

  /** `toLowerCase`: no ASCII capital letter is left, and every character
      is the lower-case form of the one at its position. */
  function ToLower(s: string): (r: string)
    ensures |r| == |s|
    ensures forall i :: 0 <= i < |r| ==> !('A' <= r[i] <= 'Z')
    ensures forall i :: 0 <= i < |s| ==> r[i] == LowerChar(s[i])
  {
    seq(|s|, i requires 0 <= i < |s| => LowerChar(s[i]))
  }

  /** Lower-casing twice is lower-casing once. */
  lemma ToLowerIdempotent(s: string)
    ensures ToLower(ToLower(s)) == ToLower(s)
  {
  }

  /** A character that no character of `s` lowers to is absent from `ToLower(s)`. */
  lemma LowerLacks(s: string, c: char)
    requires forall i :: 0 <= i < |s| ==> LowerChar(s[i]) != c
    ensures c !in ToLower(s)
  {
  }

  /** `y` is `x` or the same ASCII letter in the other case. */
  predicate SameLetter(x: char, y: char) {
    || x == y
    || ('A' <= x <= 'Z' && y as int == x as int + 32)
    || ('a' <= x <= 'z' && y as int == x as int - 32)
  }

  /** `b` is `a` with the letter case of some letters changed. */
  predicate CaseVariant(a: string, b: string) {
    |a| == |b| && forall i :: 0 <= i < |a| ==> SameLetter(a[i], b[i])
  }

  /** Changing letter case does not change the lower-case form. */
  lemma CaseVariantSameLower(a: string, b: string)
    requires CaseVariant(a, b)
    ensures ToLower(a) == ToLower(b)
  {
    forall i | 0 <= i < |a|
      ensures ToLower(a)[i] == ToLower(b)[i]
    {
      assert SameLetter(a[i], b[i]);
    }
  }

  /** Two characters lower to the same character exactly when they are the
      same letter up to case. */
  lemma SameLowerChar(x: char, y: char)
    ensures LowerChar(x) == LowerChar(y) <==> SameLetter(x, y)
  {
  }

  /** Two strings have the same lower-case form exactly when one is the
      other with the case of some letters changed. */
  lemma SameLowerIff(a: string, b: string)
    ensures ToLower(a) == ToLower(b) <==> CaseVariant(a, b)
  {
    if CaseVariant(a, b) {
      CaseVariantSameLower(a, b);
    }
    if ToLower(a) == ToLower(b) {
      forall i | 0 <= i < |a|
        ensures SameLetter(a[i], b[i])
      {
        assert ToLower(a)[i] == ToLower(b)[i];
        SameLowerChar(a[i], b[i]);
      }
    }
  }

  /** `sub` occurs at the start of `s`. */
  predicate IsPrefix(sub: string, s: string) {
    |sub| <= |s| && s[..|sub|] == sub
  }

  /** `s.includes(sub)`. */
  predicate Contains(s: string, sub: string)
    decreases |s|
  {
    IsPrefix(sub, s) || (|s| > 0 && Contains(s[1..], sub))
  }

  /** `sub` occurs in `s` starting at index `i`. */
  predicate OccursAt(s: string, sub: string, i: int) {
    0 <= i && i + |sub| <= |s| && s[i..i + |sub|] == sub
  }

  /** `Contains` holds exactly when `sub` occurs at some position of `s`. */
  lemma {:induction false} ContainsIff(s: string, sub: string)
    ensures Contains(s, sub) <==> exists i :: OccursAt(s, sub, i)
    decreases |s|
  {
    if IsPrefix(sub, s) {
      assert OccursAt(s, sub, 0);
    }
    if |s| > 0 {
      ContainsIff(s[1..], sub);
      if exists i :: OccursAt(s, sub, i) {
        var i :| OccursAt(s, sub, i);
        if i > 0 {
          assert OccursAt(s[1..], sub, i - 1);
        }
      }
      if Contains(s[1..], sub) {
        var i :| OccursAt(s[1..], sub, i);
        assert OccursAt(s, sub, i + 1);
      }
    } else {
      if exists i :: OccursAt(s, sub, i) {
        var i :| OccursAt(s, sub, i);
        assert i == 0;
      }
    }
  }

  /** A string lacking some character of `sub` does not contain `sub`. */
  lemma {:induction false} MissingCharNotContained(s: string, sub: string, c: char)
    requires c in sub && c !in s
    ensures !Contains(s, sub)
    decreases |s|
  {
    if |s| > 0 {
      MissingCharNotContained(s[1..], sub, c);
    }
  }

  /** The default order of `Array.prototype.sort` on strings: lexicographic
      by character, a proper prefix first. */
  predicate StrLe(a: string, b: string)
    decreases |a|
  {
    |a| == 0 || (|b| > 0 && (a[0] < b[0] || (a[0] == b[0] && StrLe(a[1..], b[1..]))))
  }

  lemma {:induction false} StrLeReflexive(a: string)
    ensures StrLe(a, a)
    decreases |a|
  {
    if |a| > 0 {
      StrLeReflexive(a[1..]);
    }
  }

  lemma {:induction false} StrLeTotal(a: string, b: string)
    ensures StrLe(a, b) || StrLe(b, a)
    decreases |a|
  {
    if |a| > 0 && |b| > 0 && a[0] == b[0] {
      StrLeTotal(a[1..], b[1..]);
    }
  }

  lemma {:induction false} StrLeAntisymmetric(a: string, b: string)
    requires StrLe(a, b) && StrLe(b, a)
    ensures a == b
    decreases |a|
  {
    if |a| > 0 && |b| > 0 {
      StrLeAntisymmetric(a[1..], b[1..]);
      assert a == [a[0]] + a[1..] && b == [b[0]] + b[1..];
    }
  }

  lemma {:induction false} StrLeTransitive(a: string, b: string, c: string)
    requires StrLe(a, b) && StrLe(b, c)
    ensures StrLe(a, c)
    decreases |a|
  {
    if |a| > 0 && a[0] == b[0] && b[0] == c[0] {
      StrLeTransitive(a[1..], b[1..], c[1..]);
    }
  }
}

=== FILE: wrappers.dfy ===
/** An optional value, for the three things the tracker's code can leave
    without a value: an unparsable number (NaN), an invalid date, and data
    that is still loading. */
module Wrappers {

  datatype Option<+T> = None | Some(value: T) {

    /** Returns the value held in Some, or the default for None. */
    function GetOr(default: T): T {
      match this
      case Some(v) => v
      case None => default
    }
  }
}
